=== FILE: README.md ===
# chainkit discovery, layout and scaffolding — a Dafny model

chainkit creates, runs and joins small blockchain networks. This project
models the sequential decisions at the heart of four of its Go files. It
replaces every collaborator with an input: the IPFS/libp2p node, the DHT,
the file system, the terminal and the template engine.

- **Discovery server** (`discovery/discovery.go`), module `Discovery`.
  - The lifecycle: `Start`'s guard sequence, `Stop`, and the bootstrap loop `dhtConnect`.
  - `Announce` and `Peers`. `Peers` asks the DHT for at most ten providers and scans them. It skips this node, address-less providers, failed streams and bad records. It appends the provider's IPv4 values to each record it emits.
  - `Publish` and `Join` over a content store modelled as a map from identifier to a bundle of named files. `Join` is `Discovery.JoinNetwork`; what it promises is stated by the lemmas `JoinReadsOneBundle`, `JoinComplete`, `PublishThenJoin`, `JoinMissingGenesis` and `ImagePathParses`.
  - Library calls are inputs: whether each one succeeds, the identifier decoder, the path parser's identifier test, and the DHT's provider list. The calls a run makes are recorded in order as `Effect`s.
- **Project layout** (`config/config.go`), module `Config`. Every accessor is a `path.Join` of a parent and one literal. Module `GoPath` models Go's `path.Clean`, `path.Join`, `filepath.Ext` and the `strings` prefix and suffix helpers. It reads a path as a rooted flag plus a list of elements, which makes the layout facts provable.
- **Terminal output** (`pkg/ui/ui.go`), module `Ui`.
  - `ConsoleWidth`'s fallback.
  - `Live`'s shortening and padding loops, on bytes with a UTF-8 rune count.
  - The ignore-filtered directory walk behind `Tree`, over an abstract directory tree.
- **Scaffolding** (`cmd/create.go`), module `Scaffold`.
  - The Go source guard and the destination guard.
  - The `GoPkg` import path.
  - The per-asset decision of `extractFile`: make a directory, write the file verbatim, or templatize it and drop `.tmpl`.
  - The stop-at-first-error extraction walk.

Module `Decimal` models `fmt`'s `%d`, which is used for the swarm addresses.
Module `Common` holds `Option`, `Result` and `byte`.

Go's panics are modelled as errors:

- A nil dereference returns `NilNode` or `NilPath`.
- The out-of-range slice in `Live` makes `FitAsWritten` return `None`.
- `Announce` and `Peers` block until the bootstrap closes the readiness channel. The model has no concurrency, so a call made while readiness is still false returns `NotReady`.
- The readiness channel is made once, in `New`. A second bootstrap on the same server closes it again, which panics; `DhtConnect` returns `ClosedTwice`.

Some behaviours of the code are easy to miss:

- The three published artifacts are named `chainkit.yml`, `genesis.json` and `image.tgz`.
- `Peers` filters providers by their overlay identity (`p.ID`). It never compares the `node_id` inside the record, so a provider can serve a record carrying this node's `node_id`. `Discovery.ScanSources` states the filter as written.
- When `Start` fails after `fsrepo.Open` succeeded, nothing releases the repository lock, so a `Start` from another process on that root is refused.
- Whether the lock query succeeds is an input. The model records which process holds each lock and refuses only a lock held by another process. What the lock library answers the process that already holds the lock is not modelled.
- The parse error for the image path is discarded. A path that does not parse reaches `Get` as nil (`Discovery.FetchUnchecked`), where the Go code dereferences it.

## Model

| member | source | states |
|---|---|---|
| GoPath.ElementsOfJoin | config/config.go:20 | `path.Join(a, x)` with a plain name `x` reads as `a`'s elements with `x` added at the end |
| GoPath.ExtIsSuffix | cmd/create.go:143-151 | `filepath.Ext(p) == ".tmpl"` holds exactly when `p` ends in `.tmpl`, so the extension test agrees with the suffix that `TrimSuffix` removes |
| Config.Abs | config/config.go:16-19 | `filepath.Abs` cleans a rooted path and joins a relative one onto the working directory; it fails exactly for a relative path with no working directory; the result is rooted when the working directory is |
| Config.StateDir | config/config.go:15-21 | the state directory is `state` below the absolute root, or below the raw root when `Abs` fails |
| Config.LogFile | config/config.go:24-26 | the log file is the child `log` of the state directory |
| Config.DataDir | config/config.go:29-31 | the data directory is the child `data` of the state directory |
| Config.ConfigDir | config/config.go:34-36 | the config directory is the child `config` of the state directory |
| Config.ConfigFile | config/config.go:34-42 | the config file is the child `config.toml` of the child `config` of the state directory |
| Config.ManifestPath | config/config.go:45-47 | the manifest is the child `chainkit.yml` of the raw root |
| Config.GenesisPath | config/config.go:34-52 | the genesis file is the child `genesis.json` of the child `config` of the state directory |
| Config.CLIDir | config/config.go:55-57 | the CLI directory is the child `cli` of the state directory |
| Config.IPFSDir | config/config.go:60-62 | the IPFS directory is the child `ipfs` of the state directory |
| Config.StateChildrenDistinct | config/config.go:24-62 | the log, data, config, CLI and IPFS paths are pairwise different |
| Config.ConfigFilesLayout | config/config.go:34-52 | the config file and the genesis file differ, and both lie strictly below the state directory |
| Config.ManifestOutsideState | config/config.go:15-47 | with an absolute working directory or none, the manifest never lies under the state directory |
| Ui.ConsoleWidth | pkg/ui/ui.go:54-60 | the width is the reported width when the query succeeds with a positive value, otherwise 80; it is always at least 1 |
| Ui.LeadingSpaces | pkg/ui/ui.go:64 | the leading cut of `strings.TrimSpace` is the longest run of white space at the front: every byte before it is white space and the byte at it is not |
| Ui.TrailingStart | pkg/ui/ui.go:64 | the trailing cut of `strings.TrimSpace` is the start of the longest run of white space at the end: every byte from it on is white space and the byte before it is not |
| Ui.TrimSpace | pkg/ui/ui.go:64 | the trimmed text is a contiguous slice of the input with ASCII white space on neither end, and everything dropped on either side is ASCII white space |
| Ui.Shorten | pkg/ui/ui.go:69-72 | after shortening, the line fits the width; a fitting message is unchanged; a long one becomes a prefix of itself plus an ellipsis |
| Ui.PadLine | pkg/ui/ui.go:74-78 | padding yields exactly `width` runes and only appends spaces |
| Ui.Fit | pkg/ui/ui.go:69-78 | the fitted line has exactly `width` runes: a fitting message padded with spaces, otherwise a prefix plus an ellipsis padded with spaces |
| Ui.Live | pkg/ui/ui.go:62-81 | the displayed line is the spinner frame, a space and the trimmed text, fitted to exactly the console width |
| Ui.FitAsWrittenAgrees | pkg/ui/ui.go:69-78 | on consoles of width 3 or more the loops as written never panic and give the same line as `Fit` |
| Ui.FitAsWrittenPanics | pkg/ui/ui.go:70-71 | on a one-column console with empty text, the first cut slices below zero |
| Ui.ShouldIgnore | pkg/ui/ui.go:94-101 | an entry is ignored exactly when its name is in the ignore list |
| Ui.Walk | pkg/ui/ui.go:93-123 | the walk fails exactly when a directory it enters cannot be listed; otherwise no ignored name appears at any depth |
| Ui.Tree | pkg/ui/ui.go:83-91 | a tree is printed exactly when the root is readable and no visited directory below it is unreadable; a printed tree contains no ignored name |
| Ui.WalkMirrors | pkg/ui/ui.go:107-120 | with nothing ignored, directories become branches and files become leaves, and the tree reads back as the directory tree |
| Ui.WalkPrunes | pkg/ui/ui.go:107-110 | an ignored entry is dropped with its whole subtree: walking with an ignore list is walking the pruned tree |
| Decimal.Format | discovery/discovery.go:129-130 | `%d` yields only digits for a non-negative number and a leading minus otherwise |
| Decimal.ParseFormat | discovery/discovery.go:129-130 | the port written with `%d` reads back unchanged |
| Discovery.Ipv4Values | discovery/discovery.go:319-326 | the collected values are exactly the non-empty `ip4` values of the addresses |
| Discovery.Ipv4ValuesAppend | discovery/discovery.go:319-326 | values are collected in address order |
| Discovery.ObservedKeeps | discovery/discovery.go:316-326 | an emitted record keeps the served identity and port; its addresses are the served ones (nil becomes empty) followed by the provider's non-empty IPv4 values, in their order and with repeats kept |
| Discovery.Scan | discovery/discovery.go:303-330 | the scan emits at most one record per provider |
| Discovery.ScanSources | discovery/discovery.go:304-328 | every emitted record comes from a provider that is not this node, has addresses, and answered with a record |
| Discovery.ScanAppend | discovery/discovery.go:303-330 | records come out in provider order |
| Discovery.ScanOne | discovery/discovery.go:304-314 | a provider that answers contributes its record in place; this node, an address-less provider, a failed stream or a bad record contributes nothing, and later providers are still scanned |
| Discovery.FindPeers | discovery/discovery.go:302 | at most ten records are emitted, since at most ten providers are requested |
| Discovery.FindPeersSources | discovery/discovery.go:302-328 | every record found comes from an answering provider |
| Discovery.New | discovery/discovery.go:87-93 | a new server keeps the given root and port, is not ready and has no node |
| Discovery.SwarmAddrsPort | discovery/discovery.go:128-131 | the swarm addresses are the IPv4 and IPv6 wildcard addresses, each carrying the port, which reads back unchanged |
| Discovery.Start | discovery/discovery.go:101-153 | a failed lock query, or a root whose lock another process holds, ends `Start` before any effect; otherwise `Start` begins by loading the plugins. A start succeeds when every call succeeds (init only needed on an uninitialised repository). A successful start performs, in order: load plugins, init when the repository is uninitialised, open, set the fixed pair of swarm addresses, build the node, build the DHT, spawn the bootstrap. It has a fresh node, and only its own root is locked, for the calling process |
| Discovery.Stop | discovery/discovery.go:96-98 | `Stop` returns what closing the node returns: it succeeds exactly when there is a node and closing it succeeds. A successful stop releases the root's lock unless another process holds it, and a lock of another process is never touched. Without a node it fails with no effect |
| Discovery.StartTwice | discovery/discovery.go:104-110 | while a server of one process runs on a root, a start from another process on that root fails with `AlreadyRunning` and no effect |
| Discovery.StopFreesRoot | discovery/discovery.go:96-110 | after a start and a successful stop the machine's locks are as before, and a new start from any process is not refused |
| Discovery.AttemptsViews | discovery/discovery.go:168-177 | the bootstrap loop tries every peer in order and reports exactly the unreachable ones |
| Discovery.DhtConnect | discovery/discovery.go:166-178 | the bootstrap trace is one attempt per peer in order, each failed connection reported right after its attempt whatever the others did. On a server not yet ready the readiness channel is then closed and the server ends ready with its node kept. On a server whose channel, made once by `New`, is already closed, closing it again panics (`ClosedTwice`) |
| Discovery.ClosedViews | discovery/discovery.go:166-178 | that trace tries every peer, reports exactly the unreachable ones, closes the readiness channel exactly once, and closes it last |
| Discovery.Announce | discovery/discovery.go:259-283 | announce waits for readiness and rejects a bad chain identifier before any effect. With a node, it installs the handler, then provides the decoded identifier, and it succeeds exactly when `Provide` does; the handler stays when `Provide` fails |
| Discovery.Peers | discovery/discovery.go:286-334 | the search waits for readiness and rejects a bad chain identifier before asking the DHT. With a node, it asks for ten providers of the decoded identifier and returns the scan of their answers: at most ten records, each from an answering provider |
| Discovery.AnnounceThenFind | discovery/discovery.go:268-328 | after a successful announce, when the DHT lists the announcer as the one provider of the chain, another ready node searching that chain receives the record the announcer's handler serves, which is the announced record, plus the announcer's IPv4 values |
| Discovery.Publish | discovery/discovery.go:181-213 | publishing succeeds exactly when the sandbox is made, all three files link, there is a node and the store accepts the bundle. A success stores the three files under their fixed names at the bundle's content address. Each failure names its cause (sandbox, the first file that does not link, the node, the add) and leaves the store unchanged |
| Discovery.ParsePath | discovery/discovery.go:217 | a path parses exactly when it is rooted, its first element is `ipfs` and its second is a content identifier; the parsed root and rest are those elements; otherwise the error names the path |
| Discovery.Get | discovery/discovery.go:221 | a fetch succeeds exactly for a file directly inside a stored bundle, and returns its contents |
| Discovery.FetchNamed | discovery/discovery.go:217-244 | the artifact paths of a chain parse to the chain and the artifact name; the image fetch, parse error unchecked, then behaves like the others |
| Discovery.JoinReadsOneBundle | discovery/discovery.go:216-253 | a successful join returns the three files of one stored bundle; there is no partial result |
| Discovery.JoinComplete | discovery/discovery.go:216-253 | a stored chain with all three artifacts joins to exactly those files |
| Discovery.PublishThenJoin | discovery/discovery.go:181-253 | publishing succeeds, and joining the returned identifier gives back exactly the published files |
| Discovery.JoinMissingGenesis | discovery/discovery.go:230-237 | a chain without a genesis file fails to join, with the genesis path not found |
| Discovery.ImagePathParses | discovery/discovery.go:243-244 | once the manifest path parsed, the unchecked image path parses too, to the same chain, unless the literal `chainkit.yml` is itself an identifier |
| Scaffold.GoPkgRelative | cmd/create.go:90-102 | the corrected guard admits a root exactly when the Go source directory, a slash and the import path rebuild it; behind it the import path is shorter than the root and the guard as written also passes |
| Scaffold.GuardAdmitsSibling | cmd/create.go:90-102 | the guard as written accepts `/go/srcx/app` for the source directory `/go/src` and leaves the whole absolute root as the import path |
| Scaffold.Templatize | cmd/create.go:162-172 | templatizing fails exactly when the engine fails, naming the template, and otherwise yields the engine's output |
| Scaffold.ExtractFile | cmd/create.go:125-160 | a directory only creates the joined destination. A readable file with a destination ending in `.tmpl` is templatized and written with that suffix stripped, and this fails exactly when templatizing fails; any other destination gets the contents verbatim. A name or read failure is an error |
| Scaffold.Decide | cmd/create.go:116-121 | a walk error is returned unchanged; every other entry is handed to `extractFile` with the destination root |
| Scaffold.ExtractFiles | cmd/create.go:115-123 | assets are handled in walk order and the walk stops at the first failing decision or action, which is the error returned |
| Scaffold.Scaffold | cmd/create.go:85-113 | both guards fire before any action. Past them, extraction always runs under the derived import path and stops at the first failing entry. The tree is then printed. The step succeeds exactly when the guards pass, every entry is extracted and the tree is readable, and it returns that tree, which has no `k8s` entry |

## Left out

- Go's concurrency is not modelled: goroutines, channels, contexts and the ten-second timeouts. `Peers` returns its records as a sequence, and the readiness channel is a flag.
- The libraries are not modelled: IPFS repository creation and locking, the plugin loader, libp2p streams, DHT `Provide`/`FindProvidersAsync`, and unixfs add/get. Each is an input flag or function, or a map standing for the content store.
- JSON encoding of a record is not modelled; the wire round trip is taken as exact. A record that does not decode is the `DecodeFailed` outcome.
- The bootstrap addresses are an opaque list. Their parse errors are ignored in the source anyway.
- `NetworkInfo.Project` and `NetworkInfo.WriteManifest` are not modelled. Manifest parsing and file writing are outside this core.
- `ioutil.ReadAll` on a fetched file cannot fail in the model.
- The image is returned as bytes rather than an open stream.
- Colour codes, the spinner's frame source and tree rendering are not modelled. `Live` takes the frame as an input.
- `create`, `printGettingStarted`, `goSrc` and `getCwd` in `cmd/create.go` are not modelled; the builder they call is outside this core. The source directory and the `os.Stat` result are inputs.
- The embedded asset file system is a list of visits in walk order. `MkdirAll` and `WriteFile` are actions whose success is an input.
- Ui.Shorten: keeps the slice bound at zero or above. At widths 1 and 2 it gives a line for some messages on which `pkg/ui/ui.go:71` panics; the loop as written is `Ui.ShortenAsWritten`, and `Ui.FitAsWrittenPanics` shows the panic (see Findings).
- Ui.Live: is built on the corrected `Ui.Fit`, so at console widths 1 and 2 it returns an ellipsis line for some texts on which the source panics (see Findings). It also requires ASCII text and an ASCII spinner frame, because UTF-8 decoding of arbitrary text is not modelled.
- Ui.Fit: is the corrected loop; the loop as written is `Ui.FitAsWritten`, and the two agree from width 3 up (see Findings).
- Discovery.ParsePath: accepts only `/ipfs/<identifier>/...`. It does not model the IPFS path parser's `/ipns/` names, `/ipld/` paths or bare identifiers, because name resolution needs the network.
- Discovery.Get: reads only files directly inside a bundle; published bundles are flat.
- Discovery.Stop: when closing fails, the node is taken as closed and the repository lock as still held. What the library leaves behind after a failed close is not known.
- Discovery.AnnounceThenFind: the DHT's provider list is assumed to name the announcer; it is not derived from `Provide`, because the DHT is not modelled.
- Discovery.Start: keeps the server unchanged when building the node fails, since the library's partial result is unknown. The lock query's answer for the process already holding the lock is not modelled: the model lets that process through, while the lock library may refuse it, and `fsrepo.Open` may fail when taking the lock again.
- Scaffold.Scaffold: uses the corrected Go source guard (see Findings).

## Findings

| source | as written | input that shows it | evidently intended | confidence | as-written member | corrected member |
|---|---|---|---|---|---|---|
| pkg/ui/ui.go:70-71 | each round cuts `msg[0:len(msg)-4]`, whatever the message length | console width 1, empty text: the message `"| "` has 2 runes, and the cut slices `msg[0:-2]`, which panics | keep the slice bound at zero or above, giving an ellipsis padded to the width | not executed; high | Ui.FitAsWrittenPanics | Ui.Fit |
| cmd/create.go:90 | `strings.HasPrefix(rootDir, gosource)` is a string prefix test | source directory `/go/src`, root `/go/srcx/app`: the guard passes and `GoPkg` stays `/go/srcx/app` | require `gosource + "/"` as the prefix, so that `GoPkg` is the import path below the source directory | not executed; medium | Scaffold.GuardAdmitsSibling | Scaffold.GoPkgRelative |

=== FILE: common.dfy ===
/** Values shared by every module: Go's `(T, error)` results become
    `Result`, Go's nil-able values become `Option`, and Go's byte strings
    become sequences of `byte`. */
module Common {

  type byte = b: int | 0 <= b < 256

  datatype Option<+T> = None | Some(value: T) {
    function GetOr(default: T): T {
      match this
      case Some(v) => v
      case None => default
    }
  }

  datatype Result<+T, +E> = Ok(value: T) | Err(error: E) {
    predicate IsFailure() {
      Err?
    }

    function PropagateFailure<U>(): Result<U, E>
      requires Err?
    {
      Err(error)
    }

    function Extract(): T
      requires Ok?
    {
      value
    }
  }
}

=== FILE: config.dfy ===
/** The project layout of config/config.go: every accessor is one `path.Join`
    of a parent directory and a literal element. The working directory that
    `filepath.Abs` consults is an input (`cwd`, `None` when `os.Getwd` fails). */
module Config {
  import opened Common
  import opened GoPath

  datatype Config = Config(rootDir: string)

  const StateName := "state"
  const LogName := "log"
  const DataName := "data"
  const ConfigName := "config"
  const CLIName := "cli"
  const IPFSName := "ipfs"
  const ConfigFileName := "config.toml"
  const GenesisName := "genesis.json"
  const ManifestName := "chainkit.yml"

  /** Every literal element the accessors join is a plain name. */
  lemma LiteralsAreNames()
    ensures IsName(StateName) && IsName(LogName) && IsName(DataName) && IsName(ConfigName)
    ensures IsName(CLIName) && IsName(IPFSName) && IsName(ConfigFileName) && IsName(GenesisName)
    ensures IsName(ManifestName)
  {
  }

  /** `filepath.Abs` on Unix: a rooted path is cleaned; a relative one is
      joined onto the working directory, and fails when that is unknown. */
  function Abs(p: string, cwd: Option<string>): (r: Option<string>)
    ensures r.None? <==> !Rooted(p) && cwd.None?
    ensures r.Some? && Rooted(p) ==> ElementsOf(r.value) == ElementsOf(p)
    ensures r.Some? && cwd.Some? && Rooted(cwd.value) ==> Rooted(r.value)
    ensures Rooted(p) ==> r == Some(Clean(p))
    ensures !Rooted(p) && cwd.Some? ==> r == Some(Join(cwd.value, p))
  {
    if Rooted(p) then ElementsOfClean(p); Some(Clean(p))
    else match cwd
      case None => None
      case Some(w) => JoinRooted(w, p); Some(Join(w, p))
  }

  /** The state directory: `state` under the absolute root, or under the raw
      root when `Abs` fails. */
  function StateDir(c: Config, cwd: Option<string>): (r: string)
    ensures Rooted(c.rootDir) ==> ElementsOf(r) == Append(ElementsOf(c.rootDir), StateName)
    ensures !Rooted(c.rootDir) && cwd.None? ==> ElementsOf(r) == Append(ElementsOf(c.rootDir), StateName)
    ensures !Rooted(c.rootDir) && cwd.Some? ==>
      ElementsOf(r) == Append(ElementsOf(Join(cwd.value, c.rootDir)), StateName)
  {
    var root := Abs(c.rootDir, cwd).GetOr(c.rootDir);
    LiteralsAreNames();
    ElementsOfJoin(root, StateName);
    Join(root, StateName)
  }

  function LogFile(c: Config, cwd: Option<string>): (r: string)
    ensures ElementsOf(r) == Append(ElementsOf(StateDir(c, cwd)), LogName)
  {
    LiteralsAreNames();
    ElementsOfJoin(StateDir(c, cwd), LogName);
    Join(StateDir(c, cwd), LogName)
  }

  function DataDir(c: Config, cwd: Option<string>): (r: string)
    ensures ElementsOf(r) == Append(ElementsOf(StateDir(c, cwd)), DataName)
  {
    LiteralsAreNames();
    ElementsOfJoin(StateDir(c, cwd), DataName);
    Join(StateDir(c, cwd), DataName)
  }

  function ConfigDir(c: Config, cwd: Option<string>): (r: string)
    ensures ElementsOf(r) == Append(ElementsOf(StateDir(c, cwd)), ConfigName)
  {
    LiteralsAreNames();
    ElementsOfJoin(StateDir(c, cwd), ConfigName);
    Join(StateDir(c, cwd), ConfigName)
  }

  function ConfigFile(c: Config, cwd: Option<string>): (r: string)
    ensures ElementsOf(r) == Append(Append(ElementsOf(StateDir(c, cwd)), ConfigName), ConfigFileName)
  {
    LiteralsAreNames();
    ElementsOfJoin(ConfigDir(c, cwd), ConfigFileName);
    Join(ConfigDir(c, cwd), ConfigFileName)
  }

  /** The manifest sits directly in the raw root, whatever the working directory. */
  function ManifestPath(c: Config): (r: string)
    ensures ElementsOf(r) == Append(ElementsOf(c.rootDir), ManifestName)
  {
    LiteralsAreNames();
    ElementsOfJoin(c.rootDir, ManifestName);
    Join(c.rootDir, ManifestName)
  }

  function GenesisPath(c: Config, cwd: Option<string>): (r: string)
    ensures ElementsOf(r) == Append(Append(ElementsOf(StateDir(c, cwd)), ConfigName), GenesisName)
  {
    LiteralsAreNames();
    ElementsOfJoin(ConfigDir(c, cwd), GenesisName);
    Join(ConfigDir(c, cwd), GenesisName)
  }

  function CLIDir(c: Config, cwd: Option<string>): (r: string)
    ensures ElementsOf(r) == Append(ElementsOf(StateDir(c, cwd)), CLIName)
  {
    LiteralsAreNames();
    ElementsOfJoin(StateDir(c, cwd), CLIName);
    Join(StateDir(c, cwd), CLIName)
  }

  function IPFSDir(c: Config, cwd: Option<string>): (r: string)
    ensures ElementsOf(r) == Append(ElementsOf(StateDir(c, cwd)), IPFSName)
  {
    LiteralsAreNames();
    ElementsOfJoin(StateDir(c, cwd), IPFSName);
    Join(StateDir(c, cwd), IPFSName)
  }

  /** The five state sub-paths are five different children of the state
      directory: each adds one element, and the added elements differ. */
  lemma StateChildrenDistinct(c: Config, cwd: Option<string>)
    ensures var l, d, g, i, f := LogFile(c, cwd), DataDir(c, cwd), ConfigDir(c, cwd), CLIDir(c, cwd), IPFSDir(c, cwd);
      && l != d && l != g && l != i && l != f
      && d != g && d != i && d != f
      && g != i && g != f
      && i != f
  {
    var s := StateDir(c, cwd);
    var l, d, g, i, f := LogFile(c, cwd), DataDir(c, cwd), ConfigDir(c, cwd), CLIDir(c, cwd), IPFSDir(c, cwd);
    SiblingsDiffer(s, l, d, LogName, DataName);
    SiblingsDiffer(s, l, g, LogName, ConfigName);
    SiblingsDiffer(s, l, i, LogName, CLIName);
    SiblingsDiffer(s, l, f, LogName, IPFSName);
    SiblingsDiffer(s, d, g, DataName, ConfigName);
    SiblingsDiffer(s, d, i, DataName, CLIName);
    SiblingsDiffer(s, d, f, DataName, IPFSName);
    SiblingsDiffer(s, g, i, ConfigName, CLIName);
    SiblingsDiffer(s, g, f, ConfigName, IPFSName);
    SiblingsDiffer(s, i, f, CLIName, IPFSName);
  }

  /** The configuration and genesis files are two different files inside the
      configuration directory, and so under the state directory. */
  lemma ConfigFilesLayout(c: Config, cwd: Option<string>)
    ensures ConfigFile(c, cwd) != GenesisPath(c, cwd)
    ensures Under(ConfigFile(c, cwd), StateDir(c, cwd)) && ConfigFile(c, cwd) != ConfigDir(c, cwd)
    ensures Under(GenesisPath(c, cwd), StateDir(c, cwd)) && GenesisPath(c, cwd) != ConfigDir(c, cwd)
  {
    var s, d := StateDir(c, cwd), ConfigDir(c, cwd);
    var f, g := ConfigFile(c, cwd), GenesisPath(c, cwd);
    SiblingsDiffer(d, f, g, ConfigFileName, GenesisName);
    ChildUnder(d, s, ConfigName);
    ChildUnder(f, d, ConfigFileName);
    ChildUnder(g, d, GenesisName);
    UnderTransitive(f, d, s);
    UnderTransitive(g, d, s);
  }

  /** With an absolute working directory (as `os.Getwd` gives) or none at all,
      the manifest never lies under the state directory: it stays beside it
      in the raw root, or is relative where the state directory is absolute. */
  lemma ManifestOutsideState(c: Config, cwd: Option<string>)
    requires cwd.None? || Rooted(cwd.value)
    ensures !Under(ManifestPath(c), StateDir(c, cwd))
  {
    var m := ElementsOf(ManifestPath(c));
    var s := ElementsOf(StateDir(c, cwd));
    if Rooted(c.rootDir) || cwd.None? {
      assert |m.names| == |s.names|;
      assert m.names[|m.names| - 1] != s.names[|s.names| - 1];
    } else {
      JoinRooted(cwd.value, c.rootDir);
      assert s.rooted && !m.rooted;
    }
  }
}

=== FILE: decimal.dfy ===
/** Go's `%d` verb on an `int`: an optional minus sign followed by the
    shortest run of decimal digits. `Parse` reads such text back, so that
    facts about formatted addresses can be stated as a round trip. */
module Decimal {
  import opened Common

  predicate IsDigit(c: char) {
    '0' <= c <= '9'
  }

  predicate AllDigits(s: string) {
    forall i :: 0 <= i < |s| ==> IsDigit(s[i])
  }

  function DigitChar(d: nat): (c: char)
    requires d < 10
    ensures IsDigit(c)
  {
    ('0' as int + d) as char
  }

  function DigitValue(c: char): nat
    requires IsDigit(c)
  {
    c as int - '0' as int
  }

  /** The digits of `n`, most significant first, with no leading zero. */
  function Digits(n: nat): (r: string)
    ensures |r| >= 1 && AllDigits(r)
    ensures |r| > 1 ==> r[0] != '0'
    decreases n
  {
    if n < 10 then [DigitChar(n)] else Digits(n / 10) + [DigitChar(n % 10)]
  }

  /** The number a non-empty run of digits denotes. */
  function ValueOf(s: string): nat
    requires |s| >= 1 && AllDigits(s)
    decreases |s|
  {
    if |s| == 1 then DigitValue(s[0])
    else 10 * ValueOf(s[..|s| - 1]) + DigitValue(s[|s| - 1])
  }

  /** `fmt.Sprintf("%d", n)`. */
  function Format(n: int): (r: string)
    ensures |r| >= 1
    ensures n >= 0 <==> AllDigits(r)
    ensures n < 0 <==> r[0] == '-'
  {
    if n < 0 then
      var r := "-" + Digits(-n);
      assert !IsDigit(r[0]);
      r
    else Digits(n)
  }

  /** Reads an optionally signed run of decimal digits. */
  function Parse(s: string): (r: Option<int>)
    ensures r.Some? ==> |s| >= 1
  {
    if |s| >= 2 && s[0] == '-' && AllDigits(s[1..]) then Some(0 - ValueOf(s[1..]) as int)
    else if |s| >= 1 && AllDigits(s) then Some(ValueOf(s))
    else None
  }

  lemma {:induction false} ValueOfDigits(n: nat)
    ensures ValueOf(Digits(n)) == n
    decreases n
  {
    if n >= 10 {
      var d := Digits(n);
      assert d[..|d| - 1] == Digits(n / 10);
      ValueOfDigits(n / 10);
    }
  }

  /** Formatting loses nothing: every integer is read back unchanged. */
  lemma ParseFormat(n: int)
    ensures Parse(Format(n)) == Some(n)
  {
    if n < 0 {
      var d := Digits(-n);
      var f := "-" + d;
      assert Format(n) == f;
      assert f[0] == '-' && f[1..] == d;
      ValueOfDigits(-n);
      assert Parse(f) == Some(0 - ValueOf(d) as int);
    } else {
      ValueOfDigits(n);
      assert Parse(Digits(n)) == Some(ValueOf(Digits(n)));
    }
  }

  /** Two integers format alike only when they are equal. */
  lemma FormatInjective(m: int, n: int)
    ensures Format(m) == Format(n) <==> m == n
  {
    ParseFormat(m);
    ParseFormat(n);
  }
}

=== FILE: discovery.dfy ===
/** The discovery server of discovery/discovery.go: an IPFS node that stores
    network bundles by content address, announces this node as a provider of
    a chain identifier, and collects the records other providers serve over
    the `/chainkit/0.1.0` stream protocol.

    Everything the Go code obtains from the IPFS and libp2p libraries is an
    input here: the machine's repository locks and initialised repositories
    (`Host`), the success of each library call (`StartEnv`, `PublishEnv`), the
    content identifier decoder (`decode`), the path parser's identifier test
    (`isCid`), the DHT's provider list and the outcome of each stream exchange.
    Calls are recorded, in order, as `Effect`s. A call the Go code would block
    on forever (waiting for a bootstrap that never ran) returns `NotReady`;
    a nil dereference returns `NilNode` or `NilPath`. */
module Discovery {
  import opened Common
  import opened GoPath
  import Decimal

  type PeerId = string
  type Cid = string

  /** What a node announces about itself; `ips` is `None` for Go's nil slice. */
  datatype PeerInfo = PeerInfo(nodeId: string, ips: Option<seq<string>>, tendermintP2PPort: int)

  /** One advertised address of a provider, reduced to the value of its
      `ip4` component (`None` when it has none). */
  datatype Multiaddr = Multiaddr(ip4: Option<string>)

  datatype Provider = Provider(id: PeerId, addrs: seq<Multiaddr>)

  /** The outcome of opening a protocol stream to a provider and decoding the
      JSON record it writes. */
  datatype Exchange = StreamFailed | DecodeFailed | Decoded(info: PeerInfo)

  const ProtocolId := "/chainkit/0.1.0"
  const ProviderLimit := 10
  const PluginsName := "plugins"

  datatype Error =
    | LockQueryFailed
    | AlreadyRunning(root: string)
    | PluginsFailed
    | InitFailed
    | OpenFailed
    | ConfigFailed
    | NodeFailed
    | DhtFailed
    | NotReady
    | ClosedTwice
    | CloseFailed
    | NilNode
    | NilPath
    | BadChainId(chainId: string)
    | ProvideFailed
    | SandboxFailed
    | LinkFailed(artifact: string)
    | AddFailed
    | InvalidPath(path: string)
    | NotFound(path: string)

  // ---------------------------------------------------------------------
  // Provider records

  /** The non-empty `ip4` values of `addrs`, in order. */
  function Ipv4Values(addrs: seq<Multiaddr>): (r: seq<string>)
    ensures |r| <= |addrs|
    ensures forall v :: v in r <==> v != "" && Multiaddr(Some(v)) in addrs
    decreases |addrs|
  {
    if addrs == [] then []
    else
      var init := addrs[..|addrs| - 1];
      var last := addrs[|addrs| - 1];
      assert addrs == init + [last];
      var rest := Ipv4Values(init);
      if last.ip4.Some? && last.ip4.value != "" then rest + [last.ip4.value] else rest
  }

  lemma {:induction false} Ipv4ValuesAppend(a: seq<Multiaddr>, b: seq<Multiaddr>)
    ensures Ipv4Values(a + b) == Ipv4Values(a) + Ipv4Values(b)
    decreases |b|
  {
    if b != [] {
      var b' := b[..|b| - 1];
      assert (a + b)[..|a + b| - 1] == a + b';
      Ipv4ValuesAppend(a, b');
    } else {
      assert a + b == a;
    }
  }

  /** The record `Peers` emits for provider `p` that served `info`: the
      served record, its nil list of addresses made empty, followed by the
      provider's non-empty IPv4 values. */
  function Observed(p: Provider, info: PeerInfo): PeerInfo {
    PeerInfo(info.nodeId, Some(info.ips.GetOr([]) + Ipv4Values(p.addrs)), info.tendermintP2PPort)
  }

  /** The emitted record keeps the served identity and port, keeps every
      served address first, and adds exactly the provider's IPv4 values. */
  lemma ObservedKeeps(p: Provider, info: PeerInfo)
    ensures var r := Observed(p, info);
      && r.nodeId == info.nodeId && r.tendermintP2PPort == info.tendermintP2PPort
      && r.ips.Some?
      && (info.ips.Some? ==> info.ips.value <= r.ips.value)
      && r.ips.value == info.ips.GetOr([]) + Ipv4Values(p.addrs)
      && (info.ips.None? ==> r.ips.value == Ipv4Values(p.addrs))
      && forall v :: v in r.ips.value <==>
           (info.ips.Some? && v in info.ips.value) || (v != "" && Multiaddr(Some(v)) in p.addrs)
  {
  }

  /** A provider is asked for its record when it is not this node and
      advertises at least one address. */
  predicate Eligible(self: PeerId, p: Provider) {
    p.id != self && |p.addrs| > 0
  }

  /** A provider contributes a record when it is eligible and its exchange
      decodes. */
  predicate Answers(self: PeerId, p: Provider, exchange: PeerId -> Exchange) {
    Eligible(self, p) && exchange(p.id).Decoded?
  }

  /** The loop of `Peers` over the providers the DHT yields. */
  function Scan(self: PeerId, providers: seq<Provider>, exchange: PeerId -> Exchange): (r: seq<PeerInfo>)
    ensures |r| <= |providers|
    decreases |providers|
  {
    if providers == [] then []
    else
      var p := providers[0];
      var rest := Scan(self, providers[1..], exchange);
      if Answers(self, p, exchange) then [Observed(p, exchange(p.id).info)] + rest else rest
  }

  /** `rec` is the observed record of one of `providers` that answered. */
  ghost predicate Sourced(self: PeerId, providers: seq<Provider>, exchange: PeerId -> Exchange, rec: PeerInfo) {
    exists j :: 0 <= j < |providers| && Answers(self, providers[j], exchange)
      && rec == Observed(providers[j], exchange(providers[j].id).info)
  }

  /** Every record the scan yields is the observed record of a provider that
      answered: none comes from this node or from a provider without
      addresses. */
  lemma {:induction false} ScanSources(self: PeerId, providers: seq<Provider>, exchange: PeerId -> Exchange)
    ensures forall k :: 0 <= k < |Scan(self, providers, exchange)| ==>
      Sourced(self, providers, exchange, Scan(self, providers, exchange)[k])
    decreases |providers|
  {
    if providers != [] {
      var r := Scan(self, providers, exchange);
      var rest := Scan(self, providers[1..], exchange);
      ScanSources(self, providers[1..], exchange);
      forall k | 0 <= k < |r|
        ensures Sourced(self, providers, exchange, r[k])
      {
        if Answers(self, providers[0], exchange) && k == 0 {
          assert Answers(self, providers[0], exchange) && r[k] == Observed(providers[0], exchange(providers[0].id).info);
        } else {
          var k' := if Answers(self, providers[0], exchange) then k - 1 else k;
          assert 0 <= k' < |rest| && r[k] == rest[k'];
          assert Sourced(self, providers[1..], exchange, rest[k']);
          var j' :| 0 <= j' < |providers[1..]| && Answers(self, providers[1..][j'], exchange)
            && rest[k'] == Observed(providers[1..][j'], exchange(providers[1..][j'].id).info);
          assert providers[1..][j'] == providers[j' + 1];
        }
      }
    }
  }

  /** Scanning two runs of providers is scanning each in turn. */
  lemma {:induction false} ScanAppend(self: PeerId, a: seq<Provider>, b: seq<Provider>, exchange: PeerId -> Exchange)
    ensures Scan(self, a + b, exchange) == Scan(self, a, exchange) + Scan(self, b, exchange)
    decreases |a|
  {
    if a == [] {
      assert a + b == b;
    } else {
      assert (a + b)[1..] == a[1..] + b;
      ScanAppend(self, a[1..], b, exchange);
    }
  }

  lemma ScanSingle(self: PeerId, p: Provider, exchange: PeerId -> Exchange)
    ensures Scan(self, [p], exchange) == if Answers(self, p, exchange) then [Observed(p, exchange(p.id).info)] else []
  {
    assert [p][1..] == [];
  }

  /** One provider contributes its observed record when it answers, and
      nothing otherwise: this node, an address-less provider, a failed
      stream and a malformed record are all skipped without stopping the scan. */
  lemma {:induction false} ScanOne(self: PeerId, a: seq<Provider>, p: Provider, b: seq<Provider>, exchange: PeerId -> Exchange)
    ensures Answers(self, p, exchange) ==>
      Scan(self, a + [p] + b, exchange)
        == Scan(self, a, exchange) + [Observed(p, exchange(p.id).info)] + Scan(self, b, exchange)
    ensures !Answers(self, p, exchange) ==>
      Scan(self, a + [p] + b, exchange) == Scan(self, a, exchange) + Scan(self, b, exchange)
  {
    ScanAppend(self, a + [p], b, exchange);
    ScanAppend(self, a, [p], exchange);
    ScanSingle(self, p, exchange);
  }

  /** `FindProvidersAsync(ctx, id, 10)`: at most ten providers are scanned. */
  function FindPeers(self: PeerId, providers: seq<Provider>, exchange: PeerId -> Exchange): (r: seq<PeerInfo>)
    ensures |r| <= ProviderLimit
    ensures |providers| <= ProviderLimit ==> r == Scan(self, providers, exchange)
  {
    var n := if |providers| <= ProviderLimit then |providers| else ProviderLimit;
    assert |providers| <= ProviderLimit ==> providers[..n] == providers;
    Scan(self, providers[..n], exchange)
  }

  /** Every record found comes from an answering provider. */
  lemma FindPeersSources(self: PeerId, providers: seq<Provider>, exchange: PeerId -> Exchange)
    ensures forall k :: 0 <= k < |FindPeers(self, providers, exchange)| ==>
      Sourced(self, providers, exchange, FindPeers(self, providers, exchange)[k])
  {
    var n := if |providers| <= ProviderLimit then |providers| else ProviderLimit;
    var r := FindPeers(self, providers, exchange);
    var first := providers[..n];
    assert r == Scan(self, first, exchange);
    ScanSources(self, first, exchange);
    forall k | 0 <= k < |r|
      ensures Sourced(self, providers, exchange, r[k])
    {
      assert Sourced(self, first, exchange, r[k]);
      var j :| 0 <= j < |first| && Answers(self, first[j], exchange)
        && r[k] == Observed(first[j], exchange(first[j].id).info);
      assert first[j] == providers[j];
    }
  }

  // ---------------------------------------------------------------------
  // Server state and lifecycle

  /** A running IPFS node: its identity, the record its protocol handler
      serves (once `Announce` installed one) and whether it was closed. */
  datatype Node = Node(id: PeerId, handler: Option<PeerInfo>, closed: bool)

  /** `Server`: the repository root, the swarm port, the node once built, and
      whether the bootstrap routine has closed the readiness channel. */
  datatype Server = Server(root: string, port: int, node: Option<Node>, ready: bool)

  type ProcessId = nat

  /** The machine: the process holding the lock of each locked repository
      root, and the roots holding an initialised repository. */
  datatype Host = Host(locks: map<string, ProcessId>, repos: set<string>)

  /** `fsrepo.LockedByOtherProcess`: the root's lock is held by a process
      other than the caller. */
  predicate LockedByOther(h: Host, root: string, pid: ProcessId) {
    root in h.locks && h.locks[root] != pid
  }

  /** The success of each library call `Start` makes, and the identity the
      repository gives the node. */
  datatype StartEnv = StartEnv(
    lockQueryOk: bool, pluginsOk: bool, initOk: bool, openOk: bool,
    configOk: bool, nodeOk: bool, dhtOk: bool, identity: PeerId)

  datatype Effect =
    | LoadPlugins(dir: string)
    | InitRepo(root: string)
    | OpenRepo(root: string)
    | SetSwarm(addrs: seq<string>)
    | BuildNode
    | BuildDht
    | SpawnBootstrap
    | CloseNode
    | SetHandler(protocol: string, record: PeerInfo)
    | Provide(id: Cid)
    | FindProviders(id: Cid, limit: nat)

  /** The result of a call that may change the machine. */
  datatype Lifecycle = Lifecycle(result: Result<(), Error>, server: Server, host: Host, effects: seq<Effect>)

  /** The result of a call on a server. */
  datatype Call<T> = Call(result: Result<T, Error>, server: Server, effects: seq<Effect>)

  /** A server is ready only once it has a node. */
  predicate Valid(s: Server) {
    s.ready ==> s.node.Some?
  }

  /** `New`: nothing built, not ready. */
  function New(root: string, port: int): (s: Server)
    ensures s.root == root && s.port == port
    ensures s.node.None? && !s.ready
    ensures Valid(s)
  {
    Server(root, port, None, false)
  }

  const Ip4Prefix := "/ip4/0.0.0.0/tcp/"
  const Ip6Prefix := "/ip6/::/tcp/"

  /** The two swarm addresses `Start` writes into the repository config. */
  function SwarmAddrs(port: int): seq<string> {
    [Ip4Prefix + Decimal.Format(port), Ip6Prefix + Decimal.Format(port)]
  }

  /** Each swarm address carries the port, which reads back unchanged, so
      different ports configure different addresses. */
  lemma SwarmAddrsPort(port: int, other: int)
    ensures |SwarmAddrs(port)| == 2
    ensures HasPrefix(SwarmAddrs(port)[0], Ip4Prefix)
    ensures Decimal.Parse(TrimPrefix(SwarmAddrs(port)[0], Ip4Prefix)) == Some(port)
    ensures HasPrefix(SwarmAddrs(port)[1], Ip6Prefix)
    ensures Decimal.Parse(TrimPrefix(SwarmAddrs(port)[1], Ip6Prefix)) == Some(port)
    ensures SwarmAddrs(port) == SwarmAddrs(other) <==> port == other
  {
    var a := SwarmAddrs(port);
    assert a[0][..|Ip4Prefix|] == Ip4Prefix;
    assert a[1][..|Ip6Prefix|] == Ip6Prefix;
    assert a[0][|Ip4Prefix|..] == Decimal.Format(port);
    assert a[1][|Ip6Prefix|..] == Decimal.Format(port);
    Decimal.ParseFormat(port);
    if SwarmAddrs(port) == SwarmAddrs(other) {
      assert SwarmAddrs(other)[0][|Ip4Prefix|..] == Decimal.Format(other);
      Decimal.FormatInjective(port, other);
    }
  }

  /** `Start`, called by process `pid`: refuse a root another process has
      locked, load plugins, initialise the repository when it is not, open
      it (taking its lock), configure the swarm addresses, build the node
      and its DHT, and spawn the bootstrap routine. A failure stops at the
      failing call; the lock taken by a successful open stays taken. The
      readiness channel is the one `New` made: a restart does not renew it. */
  function Start(s: Server, h: Host, env: StartEnv, pid: ProcessId): (r: Lifecycle)
    ensures !env.lockQueryOk ==> r == Lifecycle(Err(LockQueryFailed), s, h, [])
    ensures env.lockQueryOk && LockedByOther(h, s.root, pid) ==>
      r == Lifecycle(Err(AlreadyRunning(s.root)), s, h, [])
    ensures env.lockQueryOk && !LockedByOther(h, s.root, pid) ==>
      |r.effects| > 0 && r.effects[0] == LoadPlugins(Join(s.root, PluginsName))
    ensures r.server.root == s.root && r.server.port == s.port && r.server.ready == s.ready
    ensures Valid(s) ==> Valid(r.server)
    ensures r.host.locks == h.locks || r.host.locks == h.locks[s.root := pid]
    ensures h.repos <= r.host.repos <= h.repos + {s.root}
    ensures InitRepo(s.root) in r.effects ==> s.root !in h.repos
    ensures forall a :: SetSwarm(a) in r.effects ==> a == SwarmAddrs(s.port)
    ensures r.result.Ok? ==>
      && r.server.node == Some(Node(env.identity, None, false))
      && r.host.locks == h.locks[s.root := pid]
      && s.root in r.host.repos
      && (InitRepo(s.root) in r.effects <==> s.root !in h.repos)
      && |r.effects| > 0 && r.effects[|r.effects| - 1] == SpawnBootstrap
      && r.effects[0] == LoadPlugins(Join(s.root, PluginsName))
    ensures r.result.Ok? ==>
      r.effects == [LoadPlugins(Join(s.root, PluginsName))]
                   + (if s.root !in h.repos then [InitRepo(s.root)] else [])
                   + [OpenRepo(s.root), SetSwarm(SwarmAddrs(s.port)), BuildNode, BuildDht, SpawnBootstrap]
    ensures (&& env.lockQueryOk && !LockedByOther(h, s.root, pid) && env.pluginsOk
             && (env.initOk || s.root in h.repos) && env.openOk && env.configOk
             && env.nodeOk && env.dhtOk) ==> r.result.Ok?
  {
    if !env.lockQueryOk then Lifecycle(Err(LockQueryFailed), s, h, [])
    else if LockedByOther(h, s.root, pid) then Lifecycle(Err(AlreadyRunning(s.root)), s, h, [])
    else
      var e0 := [LoadPlugins(Join(s.root, PluginsName))];
      if !env.pluginsOk then Lifecycle(Err(PluginsFailed), s, h, e0)
      else
        var uninitialised := s.root !in h.repos;
        var e1 := e0 + (if uninitialised then [InitRepo(s.root)] else []);
        if uninitialised && !env.initOk then Lifecycle(Err(InitFailed), s, h, e1)
        else
          var h1 := h.(repos := h.repos + {s.root});
          var e2 := e1 + [OpenRepo(s.root)];
          if !env.openOk then Lifecycle(Err(OpenFailed), s, h1, e2)
          else
            var h2 := h1.(locks := h.locks[s.root := pid]);
            var e3 := e2 + [SetSwarm(SwarmAddrs(s.port))];
            if !env.configOk then Lifecycle(Err(ConfigFailed), s, h2, e3)
            else
              var e4 := e3 + [BuildNode];
              if !env.nodeOk then Lifecycle(Err(NodeFailed), s, h2, e4)
              else
                var s1 := s.(node := Some(Node(env.identity, None, false)));
                var e5 := e4 + [BuildDht];
                if !env.dhtOk then Lifecycle(Err(DhtFailed), s1, h2, e5)
                else Lifecycle(Ok(()), s1, h2, e5 + [SpawnBootstrap])
  }

  /** `Stop`, called by process `pid`: close the node and return what
      closing returns. A closed node releases the repository lock its
      process holds, and leaves a lock of another process alone; when
      closing fails the node is taken as closed and its lock as still held.
      Without a node the Go code dereferences nil. */
  function Stop(s: Server, h: Host, closeOk: bool, pid: ProcessId): (r: Lifecycle)
    ensures s.node.None? ==> r == Lifecycle(Err(NilNode), s, h, [])
    ensures r.result.Ok? <==> s.node.Some? && closeOk
    ensures s.node.Some? ==>
      && r.effects == [CloseNode]
      && r.server == s.(node := Some(s.node.value.(closed := true)))
      && r.host.repos == h.repos
    ensures s.node.Some? && closeOk && !LockedByOther(h, s.root, pid) ==>
      r.host.locks == h.locks - {s.root}
    ensures LockedByOther(h, s.root, pid) ==> r.host == h
    ensures s.node.Some? && !closeOk ==> r.result == Err(CloseFailed) && r.host == h
    ensures Valid(s) ==> Valid(r.server)
  {
    match s.node
    case None => Lifecycle(Err(NilNode), s, h, [])
    case Some(n) =>
      var closed := s.(node := Some(n.(closed := true)));
      var released := if LockedByOther(h, s.root, pid) then h else h.(locks := h.locks - {s.root});
      if closeOk then Lifecycle(Ok(()), closed, released, [CloseNode])
      else Lifecycle(Err(CloseFailed), closed, h, [CloseNode])
  }

  /** While a server of one process runs on a root, a start of another
      process on that root is refused before it does anything. */
  lemma StartTwice(a: Server, b: Server, h: Host, envA: StartEnv, envB: StartEnv, pidA: ProcessId, pidB: ProcessId)
    requires a.root == b.root && envB.lockQueryOk && pidA != pidB
    requires Start(a, h, envA, pidA).result.Ok?
    ensures var h' := Start(a, h, envA, pidA).host;
      Start(b, h', envB, pidB) == Lifecycle(Err(AlreadyRunning(a.root)), b, h', [])
  {
  }

  /** Stopping a started server frees its root: the machine's locks are as
      before the start, and a later start on the root, from any process, is
      not refused. */
  lemma StopFreesRoot(s: Server, h: Host, env: StartEnv, pid: ProcessId, b: Server, envB: StartEnv, pidB: ProcessId)
    requires s.root !in h.locks && b.root == s.root
    requires Start(s, h, env, pid).result.Ok?
    ensures var started := Start(s, h, env, pid);
      var stopped := Stop(started.server, started.host, true, pid);
      && stopped.result.Ok?
      && stopped.host.locks == h.locks
      && Start(b, stopped.host, envB, pidB).result != Err(AlreadyRunning(s.root))
  {
    var started := Start(s, h, env, pid);
    assert started.host.locks - {s.root} == h.locks;
  }

  /** Peer addresses that fail to connect, in order. */
  function UnreachablePeers(peers: seq<string>, connect: string -> bool): seq<string>
    decreases |peers|
  {
    if peers == [] then []
    else
      var rest := UnreachablePeers(peers[..|peers| - 1], connect);
      if connect(peers[|peers| - 1]) then rest else rest + [peers[|peers| - 1]]
  }

  /** What the bootstrap routine does: try a peer, report a failed
      connection, and finally close the readiness channel. */
  datatype BootEvent = Attempt(addr: string) | Failed(addr: string) | Closed

  function Attempted(t: seq<BootEvent>): seq<string>
    decreases |t|
  {
    if t == [] then []
    else
      var e := t[|t| - 1];
      Attempted(t[..|t| - 1]) + (if e.Attempt? then [e.addr] else [])
  }

  function Reported(t: seq<BootEvent>): seq<string>
    decreases |t|
  {
    if t == [] then []
    else
      var e := t[|t| - 1];
      Reported(t[..|t| - 1]) + (if e.Failed? then [e.addr] else [])
  }

  function CloseCount(t: seq<BootEvent>): nat
    decreases |t|
  {
    if t == [] then 0 else CloseCount(t[..|t| - 1]) + (if t[|t| - 1].Closed? then 1 else 0)
  }

  /** What one more event adds to each view of a trace. */
  lemma Extend(t: seq<BootEvent>, e: BootEvent)
    ensures Attempted(t + [e]) == Attempted(t) + (if e.Attempt? then [e.addr] else [])
    ensures Reported(t + [e]) == Reported(t) + (if e.Failed? then [e.addr] else [])
    ensures CloseCount(t + [e]) == CloseCount(t) + (if e.Closed? then 1 else 0)
  {
    assert (t + [e])[..|t|] == t;
  }

  /** The events of the bootstrap loop over `peers`, before the channel closes. */
  function Attempts(peers: seq<string>, connect: string -> bool): seq<BootEvent>
    decreases |peers|
  {
    if peers == [] then []
    else
      var p := peers[|peers| - 1];
      Attempts(peers[..|peers| - 1], connect) + [Attempt(p)] + (if connect(p) then [] else [Failed(p)])
  }

  /** The loop's events try every peer in order, report exactly the
      unreachable ones, and never close the channel. */
  lemma {:induction false} AttemptsViews(peers: seq<string>, connect: string -> bool)
    ensures Attempted(Attempts(peers, connect)) == peers
    ensures Reported(Attempts(peers, connect)) == UnreachablePeers(peers, connect)
    ensures CloseCount(Attempts(peers, connect)) == 0
    decreases |peers|
  {
    if peers != [] {
      var init := peers[..|peers| - 1];
      var p := peers[|peers| - 1];
      var t := Attempts(init, connect);
      AttemptsViews(init, connect);
      Extend(t, Attempt(p));
      if !connect(p) {
        Extend(t + [Attempt(p)], Failed(p));
      } else {
        assert t + [Attempt(p)] + [] == t + [Attempt(p)];
      }
      assert init + [p] == peers;
    }
  }

  /** The loop's events followed by closing the channel: every peer tried,
      the unreachable ones reported, one close. */
  lemma ClosedViews(peers: seq<string>, connect: string -> bool)
    ensures var t := Attempts(peers, connect) + [Closed]; t[|t| - 1] == Closed
    ensures Attempted(Attempts(peers, connect) + [Closed]) == peers
    ensures Reported(Attempts(peers, connect) + [Closed]) == UnreachablePeers(peers, connect)
    ensures CloseCount(Attempts(peers, connect) + [Closed]) == 1
  {
    AttemptsViews(peers, connect);
    Extend(Attempts(peers, connect), Closed);
  }

  /** One more round of the bootstrap loop. */
  lemma AttemptsStep(peers: seq<string>, i: nat, connect: string -> bool)
    requires i < |peers|
    ensures Attempts(peers[..i + 1], connect) ==
      Attempts(peers[..i], connect) + [Attempt(peers[i])] + (if connect(peers[i]) then [] else [Failed(peers[i])])
  {
    assert peers[..i + 1][..i] == peers[..i];
  }

  /** `dhtConnect`: the peers are tried in order whatever the others did,
      each failed connection is reported right after its attempt, and the
      readiness channel is closed after the last attempt (`ClosedViews`
      reads this trace). The channel is made once, by `New`: on a server
      whose channel an earlier bootstrap closed, closing it again panics,
      modelled as `ClosedTwice`. */
  method DhtConnect(s: Server, peers: seq<string>, connect: string -> bool)
    returns (booted: Result<Server, Error>, trace: seq<BootEvent>)
    requires s.node.Some?
    ensures !s.ready ==> trace == Attempts(peers, connect) + [Closed]
    ensures !s.ready ==> booted == Ok(s.(ready := true))
    ensures s.ready ==> trace == Attempts(peers, connect) && booted == Err(ClosedTwice)
    ensures booted.Ok? ==> Valid(booted.value)
  {
    trace := [];
    var i := 0;
    while i < |peers|
      invariant 0 <= i <= |peers|
      invariant trace == Attempts(peers[..i], connect)
    {
      var p := peers[i];
      AttemptsStep(peers, i, connect);
      if connect(p) {
        trace := trace + [Attempt(p)];
      } else {
        trace := trace + [Attempt(p)] + [Failed(p)];
      }
      i := i + 1;
    }
    assert peers[..|peers|] == peers;
    if s.ready {
      booted := Err(ClosedTwice);
    } else {
      trace := trace + [Closed];
      booted := Ok(s.(ready := true));
    }
  }

  // ---------------------------------------------------------------------
  // Announcing and finding peers

  /** `Announce`: wait for bootstrap, decode the chain identifier, install a
      handler serving `peer` on the protocol, then provide the identifier.
      The handler stays installed when providing fails. */
  function Announce(s: Server, chainId: string, peer: PeerInfo, decode: string -> Option<Cid>, provideOk: bool): (r: Call<()>)
    ensures !s.ready ==> r == Call(Err(NotReady), s, [])
    ensures s.ready && decode(chainId).None? ==> r == Call(Err(BadChainId(chainId)), s, [])
    ensures Valid(s) ==> r.result != Err(NilNode) && Valid(r.server)
    ensures r.effects != [] ==>
      && s.node.Some?
      && r.effects == [SetHandler(ProtocolId, peer), Provide(decode(chainId).value)]
      && r.server == s.(node := Some(s.node.value.(handler := Some(peer))))
      && (r.result.Ok? <==> provideOk)
    ensures r.effects == [] ==> r.server == s && r.result.Err?
    ensures s.ready && decode(chainId).Some? && s.node.None? ==> r == Call(Err(NilNode), s, [])
    ensures s.ready && decode(chainId).Some? && s.node.Some? ==>
      && r.effects == [SetHandler(ProtocolId, peer), Provide(decode(chainId).value)]
      && r.server == s.(node := Some(s.node.value.(handler := Some(peer))))
      && r.result == (if provideOk then Ok(()) else Err(ProvideFailed))
  {
    if !s.ready then Call(Err(NotReady), s, [])
    else match decode(chainId)
      case None => Call(Err(BadChainId(chainId)), s, [])
      case Some(id) =>
        match s.node
        case None => Call(Err(NilNode), s, [])
        case Some(n) =>
          Call(if provideOk then Ok(()) else Err(ProvideFailed),
               s.(node := Some(n.(handler := Some(peer)))),
               [SetHandler(ProtocolId, peer), Provide(id)])
  }

  /** `Peers`: wait for bootstrap, decode the chain identifier, ask the DHT
      for up to ten providers and scan them. */
  function Peers(s: Server, chainId: string, decode: string -> Option<Cid>,
                 providers: seq<Provider>, exchange: PeerId -> Exchange): (r: Call<seq<PeerInfo>>)
    ensures r.server == s
    ensures !s.ready ==> r == Call(Err(NotReady), s, [])
    ensures s.ready && decode(chainId).None? ==> r == Call(Err(BadChainId(chainId)), s, [])
    ensures Valid(s) ==> r.result != Err(NilNode)
    ensures r.result.Ok? ==>
      && s.node.Some?
      && r.effects == [FindProviders(decode(chainId).value, ProviderLimit)]
      && |r.result.value| <= ProviderLimit
      && forall k :: 0 <= k < |r.result.value| ==>
           Sourced(s.node.value.id, providers, exchange, r.result.value[k])
    ensures s.ready && decode(chainId).Some? && s.node.None? ==> r == Call(Err(NilNode), s, [])
    ensures s.ready && decode(chainId).Some? && s.node.Some? ==>
      && r.result == Ok(FindPeers(s.node.value.id, providers, exchange))
      && r.effects == [FindProviders(decode(chainId).value, ProviderLimit)]
  {
    if !s.ready then Call(Err(NotReady), s, [])
    else match decode(chainId)
      case None => Call(Err(BadChainId(chainId)), s, [])
      case Some(id) =>
        match s.node
        case None => Call(Err(NilNode), s, [])
        case Some(n) =>
          var r := FindPeers(n.id, providers, exchange);
          FindPeersSources(n.id, providers, exchange);
          Call(Ok(r), s, [FindProviders(id, ProviderLimit)])
  }

  /** How a node answers a stream on the protocol: with the record its
      handler serves, or not at all. */
  function Serve(n: Node): Exchange {
    if n.handler.Some? && !n.closed then Decoded(n.handler.value) else StreamFailed
  }

  /** When the DHT lists the announcer as the one provider of a chain, a
      ready node searching that chain receives the record the announcer's
      handler serves, which is the announced record, with the announcer's
      IPv4 values added. */
  lemma AnnounceThenFind(a: Server, b: Server, chainId: string, info: PeerInfo,
                         decode: string -> Option<Cid>, provideOk: bool, addrs: seq<Multiaddr>)
    requires a.ready && a.node.Some? && !a.node.value.closed
    requires b.ready && b.node.Some? && b.node.value.id != a.node.value.id
    requires decode(chainId).Some? && |addrs| > 0 && provideOk
    ensures Announce(a, chainId, info, decode, provideOk).result == Ok(())
    ensures var announced := Announce(a, chainId, info, decode, provideOk).server;
      var provider := Provider(a.node.value.id, addrs);
      var exchange := (id: PeerId) => if id == a.node.value.id then Serve(announced.node.value) else StreamFailed;
      Peers(b, chainId, decode, [provider], exchange).result == Ok([Observed(provider, info)])
  {
    var announced := Announce(a, chainId, info, decode, provideOk).server;
    var provider := Provider(a.node.value.id, addrs);
    var exchange := (id: PeerId) => if id == a.node.value.id then Serve(announced.node.value) else StreamFailed;
    assert announced.node.value == a.node.value.(handler := Some(info));
    assert exchange(provider.id) == Decoded(info);
    assert Answers(b.node.value.id, provider, exchange);
    ScanSingle(b.node.value.id, provider, exchange);
    assert FindPeers(b.node.value.id, [provider], exchange) == [Observed(provider, info)];
  }

  // ---------------------------------------------------------------------
  // Publishing and joining networks

  const ManifestArtifact := "chainkit.yml"
  const GenesisArtifact := "genesis.json"
  const ImageArtifact := "image.tgz"

  /** The files of one published directory, by name. */
  type Bundle = map<string, seq<byte>>

  /** The content store: published directories by content identifier. */
  type Store = map<Cid, Bundle>

  datatype NetworkInfo = NetworkInfo(manifest: seq<byte>, genesis: seq<byte>, image: seq<byte>)

  /** Whether the sandbox directory could be made, whether adding it to the
      store succeeds, and the content identifier the store gives a bundle. */
  datatype PublishEnv = PublishEnv(sandboxOk: bool, addOk: bool, address: Bundle -> Cid)

  datatype Published = Published(result: Result<Cid, Error>, store: Store)

  function BundleOf(manifest: seq<byte>, genesis: seq<byte>, image: seq<byte>): Bundle {
    map[ManifestArtifact := manifest, GenesisArtifact := genesis, ImageArtifact := image]
  }

  predicate Complete(b: Bundle) {
    ManifestArtifact in b && GenesisArtifact in b && ImageArtifact in b
  }

  function InfoOf(b: Bundle): NetworkInfo
    requires Complete(b)
  {
    NetworkInfo(b[ManifestArtifact], b[GenesisArtifact], b[ImageArtifact])
  }

  /** `Publish`: link the three local files (`None` when linking a file
      fails) into a fresh sandbox under their fixed names and add the
      directory to the store. The store changes only on success. */
  function Publish(s: Server, store: Store, manifest: Option<seq<byte>>, genesis: Option<seq<byte>>,
                   image: Option<seq<byte>>, env: PublishEnv): (r: Published)
    ensures r.result.Err? ==> r.store == store
    ensures r.result.Ok? ==>
      && manifest.Some? && genesis.Some? && image.Some?
      && r.result.value == env.address(BundleOf(manifest.value, genesis.value, image.value))
      && r.store == store[r.result.value := BundleOf(manifest.value, genesis.value, image.value)]
    ensures env.sandboxOk && manifest.None? ==> r.result == Err(LinkFailed(ManifestArtifact))
    ensures env.sandboxOk && manifest.Some? && genesis.None? ==> r.result == Err(LinkFailed(GenesisArtifact))
    ensures env.sandboxOk && manifest.Some? && genesis.Some? && image.None? ==>
      r.result == Err(LinkFailed(ImageArtifact))
    ensures !env.sandboxOk ==> r.result == Err(SandboxFailed)
    ensures r.result.Ok? <==>
      env.sandboxOk && manifest.Some? && genesis.Some? && image.Some? && s.node.Some? && env.addOk
    ensures env.sandboxOk && manifest.Some? && genesis.Some? && image.Some? ==>
      && (s.node.None? ==> r.result == Err(NilNode))
      && (s.node.Some? && !env.addOk ==> r.result == Err(AddFailed))
  {
    if !env.sandboxOk then Published(Err(SandboxFailed), store)
    else if manifest.None? then Published(Err(LinkFailed(ManifestArtifact)), store)
    else if genesis.None? then Published(Err(LinkFailed(GenesisArtifact)), store)
    else if image.None? then Published(Err(LinkFailed(ImageArtifact)), store)
    else if s.node.None? then Published(Err(NilNode), store)
    else if !env.addOk then Published(Err(AddFailed), store)
    else
      var b := BundleOf(manifest.value, genesis.value, image.value);
      var id := env.address(b);
      Published(Ok(id), store[id := b])
  }

  /** An IPFS path: the identifier at its root and the elements below it. */
  datatype IpfsPath = IpfsPath(root: Cid, rest: seq<string>)

  const IpfsRoot := "ipfs"

  /** `path.Join("/ipfs", chainId, name)`. */
  function ArtifactPath(chainId: string, name: string): string {
    JoinAll(["/ipfs", chainId, name])
  }

  /** The elements of `path.Join("/ipfs", chainId)`, under which every
      artifact path of the chain lies. */
  function ChainElements(chainId: string): Elements {
    ElementsOf(JoinAll(["/ipfs", chainId]))
  }

  /** `iface.ParsePath`: a rooted path whose first element is `ipfs` and whose
      second is a content identifier. */
  function ParsePath(p: string, isCid: string -> bool): (r: Result<IpfsPath, Error>)
    ensures r.Err? ==> r.error == InvalidPath(p)
    ensures r.Ok? <==>
      var e := ElementsOf(p); e.rooted && |e.names| >= 2 && e.names[0] == "ipfs" && isCid(e.names[1])
    ensures r.Ok? ==> ElementsOf(p) == Elements(true, ["ipfs", r.value.root] + r.value.rest) && isCid(r.value.root)
  {
    var e := ElementsOf(p);
    if e.rooted && |e.names| >= 2 && e.names[0] == "ipfs" && isCid(e.names[1]) then
      assert e.names == ["ipfs", e.names[1]] + e.names[2..];
      Ok(IpfsPath(e.names[1], e.names[2..]))
    else Err(InvalidPath(p))
  }

  /** `Unixfs().Get` of a file directly inside a published directory. */
  function Get(s: Server, store: Store, ip: IpfsPath, p: string): (r: Result<seq<byte>, Error>)
    ensures r.Ok? <==> s.node.Some? && ip.root in store && |ip.rest| == 1 && ip.rest[0] in store[ip.root]
    ensures r.Ok? ==> r.value == store[ip.root][ip.rest[0]]
  {
    if s.node.None? then Err(NilNode)
    else if ip.root in store && |ip.rest| == 1 && ip.rest[0] in store[ip.root] then Ok(store[ip.root][ip.rest[0]])
    else Err(NotFound(p))
  }

  /** Parse an artifact path, stopping on a parse error, and fetch it. */
  function Fetch(s: Server, store: Store, chainId: string, name: string, isCid: string -> bool): Result<seq<byte>, Error> {
    var p := ArtifactPath(chainId, name);
    var ip :- ParsePath(p, isCid);
    Get(s, store, ip, p)
  }

  /** The image is fetched without looking at the parse error: a path that
      does not parse reaches `Get` as nil. */
  function FetchUnchecked(s: Server, store: Store, chainId: string, name: string, isCid: string -> bool): Result<seq<byte>, Error> {
    var p := ArtifactPath(chainId, name);
    match ParsePath(p, isCid)
    case Err(_) => Err(NilPath)
    case Ok(ip) => Get(s, store, ip, p)
  }

  /** `Join`: fetch the manifest, the genesis and the image of a chain. */
  function JoinNetwork(s: Server, store: Store, chainId: string, isCid: string -> bool): Result<NetworkInfo, Error> {
    var manifest :- Fetch(s, store, chainId, ManifestArtifact, isCid);
    var genesis :- Fetch(s, store, chainId, GenesisArtifact, isCid);
    var image :- FetchUnchecked(s, store, chainId, ImageArtifact, isCid);
    Ok(NetworkInfo(manifest, genesis, image))
  }

  lemma ArtifactNames()
    ensures IsName(ManifestArtifact) && IsName(GenesisArtifact) && IsName(ImageArtifact)
  {
  }

  /** Every artifact path of a chain is one name below the chain's directory,
      which is rooted. */
  lemma ArtifactElements(chainId: string, name: string)
    requires IsName(name)
    ensures ElementsOf(ArtifactPath(chainId, name)) == Append(ChainElements(chainId), name)
    ensures ChainElements(chainId).rooted
  {
    assert ["/ipfs", chainId, name] == ["/ipfs", chainId] + [name];
    JoinAllChild(["/ipfs", chainId], name);
    JoinRooted("/ipfs", chainId);
  }

  /** A plain name under `/ipfs` is the chain directory `/ipfs/<name>`. */
  lemma {:induction false} ChainElementsOfName(id: string)
    requires IsName(id)
    ensures ChainElements(id) == Elements(true, ["ipfs", id])
  {
    assert ["/ipfs", id] == ["/ipfs"] + [id];
    JoinAllChild(["/ipfs"], id);
    IpfsElements();
  }

  lemma IpfsElements()
    ensures ElementsOf(JoinAll(["/ipfs"])) == Elements(true, [IpfsRoot])
  {
    var p := "/ipfs";
    assert Concat([p]) == p by {
      assert [p][..0] == [];
    }
    ElementsOfClean(p);
    assert p == "/" + IpfsRoot;
    ElementsOfRootName(IpfsRoot);
  }

  /** A successful join read all three artifacts from one stored bundle. */
  lemma JoinReadsOneBundle(s: Server, store: Store, chainId: string, isCid: string -> bool)
    requires JoinNetwork(s, store, chainId, isCid).Ok?
    ensures exists c :: c in store && Complete(store[c]) && JoinNetwork(s, store, chainId, isCid).value == InfoOf(store[c])
  {
    ArtifactNames();
    ArtifactElements(chainId, ManifestArtifact);
    ArtifactElements(chainId, GenesisArtifact);
    ArtifactElements(chainId, ImageArtifact);
    var pm := ParsePath(ArtifactPath(chainId, ManifestArtifact), isCid).value;
    var pg := ParsePath(ArtifactPath(chainId, GenesisArtifact), isCid).value;
    var pi := ParsePath(ArtifactPath(chainId, ImageArtifact), isCid).value;
    var e := ChainElements(chainId);
    assert |e.names| == 2;
    assert pm == IpfsPath(e.names[1], [ManifestArtifact]);
    assert pg == IpfsPath(e.names[1], [GenesisArtifact]);
    assert pi == IpfsPath(e.names[1], [ImageArtifact]);
    var c := e.names[1];
    assert c in store && Complete(store[c]);
  }

  /** An artifact path of a plain-named chain parses to the chain and the
      artifact's name, so fetching it reads that file of the chain's bundle. */
  lemma {:induction false} FetchNamed(s: Server, store: Store, id: Cid, name: string, isCid: string -> bool)
    requires IsName(id) && isCid(id) && IsName(name)
    ensures ParsePath(ArtifactPath(id, name), isCid) == Ok(IpfsPath(id, [name]))
    ensures Fetch(s, store, id, name, isCid) == Get(s, store, IpfsPath(id, [name]), ArtifactPath(id, name))
    ensures FetchUnchecked(s, store, id, name, isCid) == Fetch(s, store, id, name, isCid)
  {
    ChainElementsOfName(id);
    ArtifactElements(id, name);
    assert ["ipfs", id, name][2..] == [name];
  }

  /** A stored chain with all three artifacts joins to exactly those files:
      the converse of `JoinReadsOneBundle`. */
  lemma JoinComplete(s: Server, store: Store, id: Cid, isCid: string -> bool)
    requires s.node.Some? && IsName(id) && isCid(id) && id in store && Complete(store[id])
    ensures JoinNetwork(s, store, id, isCid) == Ok(InfoOf(store[id]))
  {
    ArtifactNames();
    FetchNamed(s, store, id, ManifestArtifact, isCid);
    FetchNamed(s, store, id, GenesisArtifact, isCid);
    FetchNamed(s, store, id, ImageArtifact, isCid);
  }

  /** Joining a published chain returns exactly the three published files. */
  lemma PublishThenJoin(s: Server, store: Store, manifest: seq<byte>, genesis: seq<byte>, image: seq<byte>,
                        env: PublishEnv, isCid: string -> bool)
    requires s.node.Some? && env.sandboxOk && env.addOk
    ensures var p := Publish(s, store, Some(manifest), Some(genesis), Some(image), env);
      && p.result.Ok?
      && (IsName(p.result.value) && isCid(p.result.value) ==>
            JoinNetwork(s, p.store, p.result.value, isCid) == Ok(NetworkInfo(manifest, genesis, image)))
  {
    var p := Publish(s, store, Some(manifest), Some(genesis), Some(image), env);
    var id := p.result.value;
    if IsName(id) && isCid(id) {
      assert p.store[id] == BundleOf(manifest, genesis, image);
      JoinComplete(s, p.store, id, isCid);
    }
  }

  /** A stored chain whose bundle has a manifest but no genesis file fails to
      join with the genesis path not found. */
  lemma JoinMissingGenesis(s: Server, store: Store, id: Cid, isCid: string -> bool)
    requires s.node.Some? && IsName(id) && isCid(id) && id in store
    requires ManifestArtifact in store[id] && GenesisArtifact !in store[id]
    ensures JoinNetwork(s, store, id, isCid) == Err(NotFound(ArtifactPath(id, GenesisArtifact)))
  {
    ArtifactNames();
    FetchNamed(s, store, id, ManifestArtifact, isCid);
    FetchNamed(s, store, id, GenesisArtifact, isCid);
  }

  /** The unchecked image parse is harmless once the manifest path parsed,
      as long as the manifest's file name is not itself a content
      identifier: the image path then parses to the same root. */
  lemma ImagePathParses(chainId: string, isCid: string -> bool)
    requires ParsePath(ArtifactPath(chainId, ManifestArtifact), isCid).Ok?
    requires !isCid(ManifestArtifact)
    ensures ParsePath(ArtifactPath(chainId, ImageArtifact), isCid).Ok?
    ensures ParsePath(ArtifactPath(chainId, ImageArtifact), isCid).value.root
         == ParsePath(ArtifactPath(chainId, ManifestArtifact), isCid).value.root
  {
    ArtifactNames();
    ArtifactElements(chainId, ManifestArtifact);
    ArtifactElements(chainId, ImageArtifact);
    var e := ChainElements(chainId);
    assert |e.names| >= 2;
  }
}

=== FILE: gopath.dfy ===
/** Slash-separated paths as Go's `path` package treats them.

    A path is read as a rootedness flag plus a list of elements (`Split`);
    `Clean` resolves the list the way Go's lexical `Clean` does (drops empty
    and `.` elements, lets `..` cancel the element before it, drops `..` at
    the root) and prints it back (`Render`). `Join` concatenates its non-empty
    arguments with slashes and cleans the result. */
module GoPath {

  /** The cleaned reading of a path: rooted or relative, and its elements. */
  datatype Elements = Elements(rooted: bool, names: seq<string>)

  /** An element that `Clean` keeps as it is and that names one child. */
  predicate IsName(x: string) {
    x != "" && x != "." && x != ".." && '/' !in x
  }

  predicate Rooted(p: string) {
    |p| > 0 && p[0] == '/'
  }

  /** The pieces of `p` between slashes, as `strings.Split(p, "/")` returns them. */
  function Split(p: string): (r: seq<string>)
    ensures |r| >= 1
    ensures forall i :: 0 <= i < |r| ==> '/' !in r[i]
  {
    if p == [] then [""]
    else if p[0] == '/' then [""] + Split(p[1..])
    else
      var rest := Split(p[1..]);
      [[p[0]] + rest[0]] + rest[1..]
  }

  /** Elements joined by single slashes; the inverse of `Split`. */
  function JoinNames(names: seq<string>): string
  {
    if names == [] then ""
    else if |names| == 1 then names[0]
    else names[0] + "/" + JoinNames(names[1..])
  }

  /** One step of `Clean`'s scan: what element `e` does to the elements kept so far. */
  function Step(rooted: bool, kept: seq<string>, e: string): seq<string>
  {
    if e == "" || e == "." then kept
    else if e == ".." then
      if |kept| > 0 && kept[|kept| - 1] != ".." then kept[..|kept| - 1]
      else if rooted then kept
      else kept + [".."]
    else kept + [e]
  }

  /** The scan of `Clean` over the elements `es`, starting from `kept`. */
  function Resolve(rooted: bool, kept: seq<string>, es: seq<string>): seq<string>
    decreases |es|
  {
    if es == [] then kept
    else Resolve(rooted, Step(rooted, kept, es[0]), es[1..])
  }

  /** The elements `Clean` can leave: no empty, `.` or slash-bearing element,
      and `..` only in a leading run of a relative path. */
  ghost predicate IsNormal(e: Elements) {
    forall i :: 0 <= i < |e.names| ==>
      && e.names[i] != "" && e.names[i] != "." && '/' !in e.names[i]
      && (e.names[i] == ".." ==> !e.rooted && forall j :: 0 <= j < i ==> e.names[j] == "..")
  }

  /** The text `Clean` prints for a resolved element list. */
  function Render(e: Elements): string
  {
    if e.rooted then "/" + JoinNames(e.names)
    else if e.names == [] then "."
    else JoinNames(e.names)
  }

  /** How `Clean` reads a path. */
  function ElementsOf(p: string): Elements
  {
    Elements(Rooted(p), Resolve(Rooted(p), [], Split(p)))
  }

  /** Go's `path.Clean`. */
  function Clean(p: string): (r: string)
    ensures r != ""
    ensures Rooted(r) == Rooted(p)
  {
    ResolveIsNormal(Rooted(p), [], Split(p));
    ElementsOfRender(ElementsOf(p));
    Render(ElementsOf(p))
  }

  /** `e` with one more element at the end. */
  function Append(e: Elements, x: string): Elements {
    Elements(e.rooted, e.names + [x])
  }

  /** The slash-joined text of the non-empty arguments, before cleaning
      (the buffer Go's `path.Join` builds). */
  function Concat(es: seq<string>): string
  {
    if es == [] then ""
    else
      var buf := Concat(es[..|es| - 1]);
      var e := es[|es| - 1];
      if |buf| > 0 then buf + "/" + e else e
  }

  /** Go's variadic `path.Join`: empty when every argument is empty, otherwise
      the cleaned slash-joined text of the non-empty arguments. */
  function JoinAll(es: seq<string>): string
  {
    var buf := Concat(es);
    if buf == "" then "" else Clean(buf)
  }

  /** `path.Join(a, b)`. */
  function Join(a: string, b: string): string
  {
    JoinAll([a, b])
  }

  /** `strings.HasPrefix`. */
  predicate HasPrefix(s: string, prefix: string) {
    |prefix| <= |s| && s[..|prefix|] == prefix
  }

  /** `strings.HasSuffix`. */
  predicate HasSuffix(s: string, suffix: string) {
    |suffix| <= |s| && s[|s| - |suffix|..] == suffix
  }

  /** `strings.TrimPrefix`. */
  function TrimPrefix(s: string, prefix: string): (r: string)
    ensures HasPrefix(s, prefix) ==> prefix + r == s
    ensures !HasPrefix(s, prefix) ==> r == s
  {
    if HasPrefix(s, prefix) then s[|prefix|..] else s
  }

  /** `strings.TrimSuffix`. */
  function TrimSuffix(s: string, suffix: string): (r: string)
    ensures HasSuffix(s, suffix) ==> r + suffix == s
    ensures !HasSuffix(s, suffix) ==> r == s
  {
    if HasSuffix(s, suffix) then s[..|s| - |suffix|] else s
  }

  /** Go's `path.Ext` / `filepath.Ext`: the suffix of `p` from the last dot
      of its final element, or "" when that element has no dot. */
  function Ext(p: string): (r: string)
    ensures r == "" || (r[0] == '.' && HasSuffix(p, r))
    ensures '/' !in r
    decreases |p|
  {
    if p == [] || p[|p| - 1] == '/' then ""
    else if p[|p| - 1] == '.' then "."
    else
      var r := Ext(p[..|p| - 1]);
      if r == "" then "" else r + [p[|p| - 1]]
  }

  // ---------------------------------------------------------------------
  // Lemmas

  lemma {:induction false} SplitSlashFree(s: string)
    requires '/' !in s
    ensures Split(s) == [s]
    decreases |s|
  {
    if s != [] {
      SplitSlashFree(s[1..]);
      assert [s[0]] + s[1..] == s;
    }
  }

  /** Splitting `a/x` for a slash-free `x` splits `a` and adds `x`. */
  lemma {:induction false} SplitChild(a: string, x: string)
    requires '/' !in x
    ensures Split(a + "/" + x) == Split(a) + [x]
    decreases |a|
  {
    if a == [] {
      assert a + "/" + x == "/" + x;
      assert ("/" + x)[1..] == x;
      SplitSlashFree(x);
    } else {
      assert (a + "/" + x)[0] == a[0];
      assert (a + "/" + x)[1..] == a[1..] + "/" + x;
      SplitChild(a[1..], x);
    }
  }

  /** Splitting `s/t` for a slash-free `s` gives `s` then the pieces of `t`. */
  lemma {:induction false} SplitHead(s: string, t: string)
    requires '/' !in s
    ensures Split(s + "/" + t) == [s] + Split(t)
    decreases |s|
  {
    if s == [] {
      assert s + "/" + t == "/" + t;
      assert ("/" + t)[1..] == t;
    } else {
      assert (s + "/" + t)[0] == s[0];
      assert (s + "/" + t)[1..] == s[1..] + "/" + t;
      SplitHead(s[1..], t);
      assert [s[0]] + s[1..] == s;
    }
  }

  /** `Split` undoes `JoinNames` on non-empty lists of slash-free pieces. */
  lemma {:induction false} SplitJoinNames(names: seq<string>)
    requires |names| >= 1
    requires forall i :: 0 <= i < |names| ==> '/' !in names[i]
    ensures Split(JoinNames(names)) == names
    decreases |names|
  {
    if |names| == 1 {
      SplitSlashFree(names[0]);
    } else {
      SplitHead(names[0], JoinNames(names[1..]));
      SplitJoinNames(names[1..]);
    }
  }

  lemma {:induction false} ResolveConcat(rooted: bool, kept: seq<string>, a: seq<string>, b: seq<string>)
    ensures Resolve(rooted, kept, a + b) == Resolve(rooted, Resolve(rooted, kept, a), b)
    decreases |a|
  {
    if a == [] {
      assert a + b == b;
    } else {
      assert (a + b)[0] == a[0];
      assert (a + b)[1..] == a[1..] + b;
      ResolveConcat(rooted, Step(rooted, kept, a[0]), a[1..], b);
    }
  }

  lemma StepKeepsNormal(rooted: bool, kept: seq<string>, e: string)
    requires IsNormal(Elements(rooted, kept))
    requires '/' !in e
    ensures IsNormal(Elements(rooted, Step(rooted, kept, e)))
  {
    var r := Step(rooted, kept, e);
    if e == ".." && !(|kept| > 0 && kept[|kept| - 1] != "..") && !rooted {
      forall i | 0 <= i < |r| && r[i] == ".."
        ensures forall j :: 0 <= j < i ==> r[j] == ".."
      {
        if i == |kept| && i > 0 {
          assert kept[i - 1] == "..";
        }
      }
    }
  }

  /** Whatever the input, the scan leaves a normal element list. */
  lemma {:induction false} ResolveIsNormal(rooted: bool, kept: seq<string>, es: seq<string>)
    requires IsNormal(Elements(rooted, kept))
    requires forall i :: 0 <= i < |es| ==> '/' !in es[i]
    ensures IsNormal(Elements(rooted, Resolve(rooted, kept, es)))
    decreases |es|
  {
    if es != [] {
      StepKeepsNormal(rooted, kept, es[0]);
      ResolveIsNormal(rooted, Step(rooted, kept, es[0]), es[1..]);
    }
  }

  /** The scan keeps a list that is already normal exactly as it is. */
  lemma {:induction false} ResolveNormal(rooted: bool, names: seq<string>)
    requires IsNormal(Elements(rooted, names))
    ensures Resolve(rooted, [], names) == names
    decreases |names|
  {
    if names != [] {
      var n := |names|;
      var init := names[..n - 1];
      assert IsNormal(Elements(rooted, init));
      ResolveNormal(rooted, init);
      assert init + [names[n - 1]] == names;
      ResolveConcat(rooted, [], init, [names[n - 1]]);
      if names[n - 1] == ".." && n > 1 {
        assert init[n - 2] == "..";
      }
    }
  }

  lemma JoinNamesHead(names: seq<string>)
    requires |names| >= 1 && names[0] != "" && names[0][0] != '/'
    ensures |JoinNames(names)| > 0 && JoinNames(names)[0] == names[0][0]
  {
  }

  /** Reading back what `Render` printed gives the same normal element list. */
  lemma ElementsOfRender(e: Elements)
    requires IsNormal(e)
    ensures ElementsOf(Render(e)) == e
  {
    var p := Render(e);
    if e.rooted {
      assert p[0] == '/' && p[1..] == JoinNames(e.names);
      if e.names == [] {
        assert Split(p) == ["", ""];
      } else {
        SplitJoinNames(e.names);
        assert Split(p) == [""] + e.names;
        ResolveNormal(true, e.names);
      }
    } else if e.names == [] {
      SplitSlashFree(p);
      assert Resolve(false, [], ["."]) == [];
    } else {
      JoinNamesHead(e.names);
      SplitJoinNames(e.names);
      ResolveNormal(false, e.names);
    }
  }

  /** `Clean` keeps the reading of a path: same rootedness, same elements. */
  lemma ElementsOfClean(p: string)
    ensures ElementsOf(Clean(p)) == ElementsOf(p)
  {
    ResolveIsNormal(Rooted(p), [], Split(p));
    ElementsOfRender(ElementsOf(p));
  }

  /** A slash followed by a plain name reads as that one rooted element. */
  lemma ElementsOfRootName(x: string)
    requires IsName(x)
    ensures ElementsOf("/" + x) == Elements(true, [x])
  {
    assert ("/" + x)[0] == '/' && ("/" + x)[1..] == x;
    SplitSlashFree(x);
    assert Split("/" + x) == ["", x];
    assert ["", x][1..] == [x] && [x][1..] == [];
    assert Resolve(true, [x], []) == [x];
    assert Resolve(true, [], [x]) == [x];
    assert Resolve(true, [], ["", x]) == [x];
  }

  /** Reading `a/x` for a non-empty `a` and a plain name `x` reads `a` and adds `x`. */
  lemma ElementsOfChild(a: string, x: string)
    requires a != "" && IsName(x)
    ensures ElementsOf(a + "/" + x) == Append(ElementsOf(a), x)
  {
    var r := Rooted(a);
    assert (a + "/" + x)[0] == a[0];
    SplitChild(a, x);
    ResolveConcat(r, [], Split(a), [x]);
  }

  /** Joining a plain name onto any path list adds exactly that element to the
      joined path: the name becomes a child of the path built so far. */
  lemma JoinAllChild(es: seq<string>, x: string)
    requires IsName(x)
    ensures ElementsOf(JoinAll(es + [x])) == Append(ElementsOf(JoinAll(es)), x)
  {
    assert (es + [x])[..|es|] == es;
    var buf := Concat(es);
    if buf == "" {
      assert Concat(es + [x]) == x;
      ElementsOfClean(x);
      SplitSlashFree(x);
      assert x[0] in x;
      assert !Rooted(x);
      assert Resolve(false, [], [x]) == [x];
      assert ElementsOf("") == Elements(false, []);
    } else {
      assert Concat(es + [x]) == buf + "/" + x;
      ElementsOfChild(buf, x);
      ElementsOfClean(buf);
      ElementsOfClean(buf + "/" + x);
    }
  }

  /** `path.Join(a, x)` for a plain name `x` is the child `x` of `a`. */
  lemma ElementsOfJoin(a: string, x: string)
    requires IsName(x)
    ensures ElementsOf(Join(a, x)) == Append(ElementsOf(a), x)
  {
    assert [a, x] == [a] + [x];
    JoinAllChild([a], x);
    assert [a][..0] == [];
    assert Concat([a]) == a;
    ElementsOfClean(a);
  }

  /** Two children of one directory with different names are different paths. */
  lemma SiblingsDiffer(d: string, p: string, q: string, x: string, y: string)
    requires ElementsOf(p) == Append(ElementsOf(d), x)
    requires ElementsOf(q) == Append(ElementsOf(d), y)
    requires x != y
    ensures p != q
  {
    assert ElementsOf(p).names[|ElementsOf(d).names|] == x;
  }

  /** `p` lies at or below `d`: same rootedness, and `d`'s elements lead `p`'s. */
  predicate Under(p: string, d: string) {
    var ep := ElementsOf(p);
    var ed := ElementsOf(d);
    ep.rooted == ed.rooted && |ed.names| <= |ep.names| && ep.names[..|ed.names|] == ed.names
  }

  /** A child lies under its parent and is not the parent itself. */
  lemma ChildUnder(p: string, d: string, x: string)
    requires ElementsOf(p) == Append(ElementsOf(d), x)
    ensures Under(p, d) && p != d
  {
    assert ElementsOf(p).names[..|ElementsOf(d).names|] == ElementsOf(d).names;
  }

  lemma UnderTransitive(p: string, q: string, d: string)
    requires Under(p, q) && Under(q, d)
    ensures Under(p, d)
  {
    var n := |ElementsOf(d).names|;
    assert ElementsOf(p).names[..n] == ElementsOf(p).names[..|ElementsOf(q).names|][..n];
  }

  /** A rooted path stays rooted whatever is joined onto it. */
  lemma JoinRooted(a: string, b: string)
    ensures Rooted(a) ==> Rooted(Join(a, b))
  {
    if Rooted(a) {
      assert [a, b][..1] == [a];
      assert [a][..0] == [];
      assert Concat([a]) == a;
      assert Concat([a, b]) == a + "/" + b;
    }
  }

  /** `Ext(p)` is ".tmpl" exactly when `p` ends with ".tmpl": the extension
      test and the suffix Go trims afterwards agree. */
  lemma {:induction false} ExtIsSuffix(p: string, ext: string)
    requires |ext| >= 1 && ext[0] == '.' && '.' !in ext[1..] && '/' !in ext
    ensures Ext(p) == ext <==> HasSuffix(p, ext)
    decreases |p|
  {
    if |ext| > 1 {
      assert ext[|ext| - 1] == ext[1..][|ext| - 2];
    }
    if p == [] || p[|p| - 1] == '/' {
    } else if p[|p| - 1] == '.' {
    } else {
      var q := p[..|p| - 1];
      var c := p[|p| - 1];
      if |ext| == 1 {
      } else {
        var e' := ext[..|ext| - 1];
        assert e'[1..] == ext[1..][..|ext| - 2];
        assert '.' !in e'[1..] by {
          forall k | 0 <= k < |e'[1..]| ensures e'[1..][k] != '.' {
            assert e'[1..][k] == ext[1..][k];
          }
        }
        ExtIsSuffix(q, e');
        if HasSuffix(p, ext) {
          assert q[|q| - |e'|..] == p[|p| - |ext|..][..|ext| - 1];
          assert HasSuffix(q, e');
        }
        if Ext(p) == ext {
          assert Ext(q) + [c] == ext;
          assert Ext(q) == e';
          assert p[|p| - |ext|..] == q[|q| - |e'|..] + [c];
        }
      }
    }
  }
}

=== FILE: scaffold.dfy ===
/** The scaffolding step of cmd/create.go: refuse a root outside the Go
    source tree or one that exists, derive the Go import path, and turn each
    embedded template asset into one file-system action.

    The embedded asset walk is an input (`visits`, in walk order), as are the
    template engine (`Engine`: `None` when parsing or executing fails), the
    result of `os.Stat` on the destination, and the success of each action.
    File contents are strings, since Go moves between `[]byte` and `string`
    freely here. */
module Scaffold {
  import opened Common
  import opened GoPath
  import Ui

  datatype TemplateContext = TemplateContext(name: string, rootDir: string, goPkg: string)

  /** `text/template` parsing and executing `input` under `name` against a context. */
  type Engine = (TemplateContext, string, string) -> Option<string>

  /** One step of the asset walk: an entry, or the error the walk reports for it. */
  datatype Visit = Visit(src: string, isDir: bool, data: Option<string>) | Broken(src: string)

  datatype Action = MakeDir(path: string) | WriteFile(path: string, contents: string)

  /** What `os.Stat` says about the destination. */
  datatype Stat = Exists | Missing | StatFailed

  datatype Error =
    | OutsideGopath(gopath: string)
    | DestinationExists(path: string)
    | TemplateFailed(name: string)
    | ReadFailed(src: string)
    | WalkFailed(src: string)
    | ActionFailed(action: Action)
    | TreeFailed

  const TemplateExt := ".tmpl"
  const IgnoredInTree: seq<string> := ["k8s"]

  // ---------------------------------------------------------------------
  // The Go source guard and the import path

  /** The guard as written: a string prefix, so a sibling directory whose
      name merely starts like the source directory passes. */
  predicate InGopathAsWritten(rootDir: string, gosource: string) {
    HasPrefix(rootDir, gosource)
  }

  /** The guard as evidently intended: the root lies strictly inside the
      source directory. */
  predicate InGopath(rootDir: string, gosource: string) {
    HasPrefix(rootDir, gosource + "/")
  }

  /** `GoPkg`: the root with the source directory and its slash removed. */
  function GoPkg(rootDir: string, gosource: string): string {
    TrimPrefix(rootDir, gosource + "/")
  }

  /** The intended guard admits exactly the roots that the source
      directory, a slash and the import path rebuild; behind it the import
      path is shorter than the root, and the guard as written agrees. */
  lemma GoPkgRelative(rootDir: string, gosource: string)
    ensures InGopath(rootDir, gosource) <==> gosource + "/" + GoPkg(rootDir, gosource) == rootDir
    ensures InGopath(rootDir, gosource) ==>
      |GoPkg(rootDir, gosource)| < |rootDir| && InGopathAsWritten(rootDir, gosource)
  {
    var prefix := gosource + "/";
    if prefix + GoPkg(rootDir, gosource) == rootDir {
      assert rootDir[..|prefix|] == prefix;
    }
    if InGopath(rootDir, gosource) {
      assert rootDir[..|gosource|] == prefix[..|gosource|];
    }
  }

  /** The guard as written lets a sibling of the source directory through,
      and its import path is then the whole absolute root. */
  lemma GuardAdmitsSibling()
    ensures InGopathAsWritten("/go/srcx/app", "/go/src")
    ensures !InGopath("/go/srcx/app", "/go/src")
    ensures GoPkg("/go/srcx/app", "/go/src") == "/go/srcx/app"
  {
    assert "/go/srcx/app"[..|"/go/src"|] == "/go/src";
    assert "/go/srcx/app"[..|"/go/src/"|] != "/go/src/" by {
      assert "/go/srcx/app"[7] == 'x';
    }
  }

  function ContextFor(name: string, rootDir: string, gosource: string): TemplateContext {
    TemplateContext(name, rootDir, GoPkg(rootDir, gosource))
  }

  // ---------------------------------------------------------------------
  // One asset

  function Templatize(ctx: TemplateContext, engine: Engine, name: string, input: string): (r: Result<string, Error>)
    ensures r.Ok? <==> engine(ctx, name, input).Some?
    ensures r.Ok? ==> r.value == engine(ctx, name, input).value
    ensures r.Err? ==> r.error == TemplateFailed(name)
  {
    match engine(ctx, name, input)
    case None => Err(TemplateFailed(name))
    case Some(out) => Ok(out)
  }

  /** `extractFile`: the destination is the templatized source name joined
      onto `dst`; a directory is made there; a file's contents are read and,
      when the destination has the template extension, templatized and
      written without that extension, and otherwise written as read. */
  function ExtractFile(ctx: TemplateContext, engine: Engine, src: string, isDir: bool,
                       data: Option<string>, dst: string): (r: Result<Action, Error>)
    ensures engine(ctx, src, src).None? ==> r == Err(TemplateFailed(src))
    ensures isDir && engine(ctx, src, src).Some? ==>
      r == Ok(MakeDir(Join(dst, engine(ctx, src, src).value)))
    ensures !isDir && engine(ctx, src, src).Some? && data.None? ==> r == Err(ReadFailed(src))
    ensures r.Ok? && !isDir ==>
      var target := Join(dst, engine(ctx, src, src).value);
      && data.Some? && r.value.WriteFile?
      && (HasSuffix(target, TemplateExt) ==>
            && r.value.path + TemplateExt == target
            && engine(ctx, target, data.value) == Some(r.value.contents))
      && (!HasSuffix(target, TemplateExt) ==> r.value == WriteFile(target, data.value))
    ensures !isDir && engine(ctx, src, src).Some? && data.Some? ==>
      var target := Join(dst, engine(ctx, src, src).value);
      && (!HasSuffix(target, TemplateExt) ==> r == Ok(WriteFile(target, data.value)))
      && (HasSuffix(target, TemplateExt) ==>
            && (r.Ok? <==> engine(ctx, target, data.value).Some?)
            && (r.Err? ==> r == Err(TemplateFailed(target))))
  {
    var parsed :- Templatize(ctx, engine, src, src);
    var target := Join(dst, parsed);
    if isDir then Ok(MakeDir(target))
    else if data.None? then Err(ReadFailed(src))
    else
      ExtIsSuffix(target, TemplateExt);
      if Ext(target) == TemplateExt then
        var contents :- Templatize(ctx, engine, target, data.value);
        Ok(WriteFile(TrimSuffix(target, TemplateExt), contents))
      else Ok(WriteFile(target, data.value))
  }

  /** The walk callback: a walk error is returned as is. */
  function Decide(ctx: TemplateContext, engine: Engine, v: Visit, dst: string): (r: Result<Action, Error>)
    ensures v.Broken? ==> r == Err(WalkFailed(v.src))
    ensures v.Visit? ==> r == ExtractFile(ctx, engine, v.src, v.isDir, v.data, dst)
  {
    match v
    case Broken(src) => Err(WalkFailed(src))
    case Visit(src, isDir, data) => ExtractFile(ctx, engine, src, isDir, data, dst)
  }

  predicate AllSucceed(done: seq<Action>, fsOk: Action -> bool) {
    forall i :: 0 <= i < |done| ==> fsOk(done[i])
  }

  /** `extractFiles`: the asset walk with `decide` as its callback. The
      visits are handled in walk order and the walk stops at the first
      error, whether the decision or the action fails. */
  method ExtractFiles(visits: seq<Visit>, decide: Visit -> Result<Action, Error>, fsOk: Action -> bool)
    returns (result: Result<(), Error>, done: seq<Action>)
    ensures |done| <= |visits|
    ensures forall i :: 0 <= i < |done| ==> decide(visits[i]) == Ok(done[i])
    ensures result.Ok? <==> |done| == |visits| && AllSucceed(done, fsOk)
    ensures result.Err? ==>
      || (&& AllSucceed(done, fsOk) && |done| < |visits|
          && decide(visits[|done|]) == Err(result.error))
      || (&& |done| > 0 && AllSucceed(done[..|done| - 1], fsOk) && !fsOk(done[|done| - 1])
          && result.error == ActionFailed(done[|done| - 1]))
  {
    done := [];
    var i := 0;
    while i < |visits|
      invariant 0 <= i <= |visits| && |done| == i
      invariant forall j :: 0 <= j < i ==> decide(visits[j]) == Ok(done[j])
      invariant AllSucceed(done, fsOk)
    {
      var step := decide(visits[i]);
      if step.Err? {
        result := Err(step.error);
        return;
      }
      var before := done;
      done := done + [step.value];
      assert done[..|done| - 1] == before;
      if !fsOk(step.value) {
        result := Err(ActionFailed(step.value));
        return;
      }
      i := i + 1;
    }
    result := Ok(());
  }

  // ---------------------------------------------------------------------
  // The whole step

  /** `scaffold`: both guards come before any action; the extraction runs
      under the derived context; the tree of the new root is printed with
      `k8s` left out. `written` stands for the file system under the new
      root after extraction; it is an input, not derived from the actions. */
  method Scaffold(name: string, rootDir: string, gosource: string, gopath: string, stat: Stat,
                  engine: Engine, visits: seq<Visit>, fsOk: Action -> bool, written: Ui.Listing)
    returns (result: Result<seq<Ui.Item>, Error>, done: seq<Action>)
    ensures !InGopath(rootDir, gosource) ==> result == Err(OutsideGopath(gopath)) && done == []
    ensures InGopath(rootDir, gosource) && stat != Missing ==>
      result == Err(DestinationExists(rootDir)) && done == []
    ensures done != [] ==> InGopath(rootDir, gosource) && stat == Missing
    ensures |done| <= |visits|
    ensures forall i :: 0 <= i < |done| ==>
      Decide(ContextFor(name, rootDir, gosource), engine, visits[i], rootDir) == Ok(done[i])
    ensures result.Ok? ==>
      && InGopath(rootDir, gosource) && stat == Missing
      && gosource + "/" + ContextFor(name, rootDir, gosource).goPkg == rootDir
      && |done| == |visits| && AllSucceed(done, fsOk)
      && written.Entries? && Ui.Avoids(result.value, IgnoredInTree)
    ensures result.Ok? <==>
      && InGopath(rootDir, gosource) && stat == Missing
      && |done| == |visits| && AllSucceed(done, fsOk)
      && Ui.Tree(written, IgnoredInTree).Some?
    ensures result.Ok? ==> result.value == Ui.Tree(written, IgnoredInTree).value
    ensures InGopath(rootDir, gosource) && stat == Missing && result.Err? ==>
      var ctx := ContextFor(name, rootDir, gosource);
      || (&& AllSucceed(done, fsOk) && |done| < |visits|
          && Decide(ctx, engine, visits[|done|], rootDir) == Err(result.error))
      || (&& |done| > 0 && AllSucceed(done[..|done| - 1], fsOk) && !fsOk(done[|done| - 1])
          && result.error == ActionFailed(done[|done| - 1]))
      || (&& |done| == |visits| && AllSucceed(done, fsOk)
          && Ui.Tree(written, IgnoredInTree).None? && result.error == TreeFailed)
  {
    done := [];
    if !InGopath(rootDir, gosource) {
      return Err(OutsideGopath(gopath)), done;
    }
    if stat != Missing {
      return Err(DestinationExists(rootDir)), done;
    }
    var ctx := ContextFor(name, rootDir, gosource);
    GoPkgRelative(rootDir, gosource);
    var extracted;
    extracted, done := ExtractFiles(visits, v => Decide(ctx, engine, v, rootDir), fsOk);
    if extracted.Err? {
      return Err(extracted.error), done;
    }
    match Ui.Tree(written, IgnoredInTree)
    case None => result := Err(TreeFailed);
    case Some(items) => result := Ok(items);
  }
}

=== FILE: ui.dfy ===
/** Terminal helpers of pkg/ui/ui.go: the console-width fallback, the
    one-line status display `Live`, and the directory walk behind `Tree`.

    Go strings are byte strings. The model of `Live` works on bytes; the
    input text is ASCII, and the only multi-byte sequence that ever appears
    is the ellipsis `…` (E2 80 A6) that shortening appends. The rune count
    is the number of bytes that do not continue a UTF-8 sequence, which is
    what `utf8.RuneCountInString` returns on valid UTF-8. */
module Ui {
  import opened Common

  const DefaultWidth: int := 80
  const Space: byte := 32
  const Ellipsis: seq<byte> := [0xE2, 0x80, 0xA6]

  // ---------------------------------------------------------------------
  // Console width

  /** `ConsoleWidth`: the reported terminal width, or 80 when the size
      query fails (`None`) or reports a width that is not positive. */
  function ConsoleWidth(reported: Option<int>): (w: int)
    ensures w >= 1
    ensures reported.Some? && reported.value > 0 ==> w == reported.value
    ensures reported.None? || reported.value <= 0 ==> w == DefaultWidth
  {
    if reported.None? || reported.value <= 0 then DefaultWidth else reported.value
  }

  // ---------------------------------------------------------------------
  // Bytes, runes and whitespace

  predicate IsContinuation(b: byte) {
    0x80 <= b < 0xC0
  }

  /** Number of runes in valid UTF-8: the bytes that start a sequence. */
  function RuneCount(s: seq<byte>): nat
  {
    if s == [] then 0
    else (if IsContinuation(s[0]) then 0 else 1) + RuneCount(s[1..])
  }

  predicate Ascii(s: seq<byte>) {
    forall i :: 0 <= i < |s| ==> s[i] < 0x80
  }

  /** The ASCII bytes `strings.TrimSpace` removes. */
  predicate IsSpace(b: byte) {
    b == 9 || b == 10 || b == 11 || b == 12 || b == 13 || b == 32
  }

  function Spaces(n: nat): (r: seq<byte>)
    ensures |r| == n && forall i :: 0 <= i < n ==> r[i] == Space
  {
    seq(n, _ => Space)
  }

  /** How many white-space bytes lead `s`: where `strings.TrimLeft` cuts. */
  function LeadingSpaces(s: seq<byte>): (n: nat)
    ensures n <= |s|
    ensures forall i :: 0 <= i < n ==> IsSpace(s[i])
    ensures n < |s| ==> !IsSpace(s[n])
    decreases |s|
  {
    if s != [] && IsSpace(s[0]) then 1 + LeadingSpaces(s[1..]) else 0
  }

  /** Where the trailing white space of `s` starts: where `strings.TrimRight` cuts. */
  function TrailingStart(s: seq<byte>): (e: nat)
    ensures e <= |s|
    ensures forall i :: e <= i < |s| ==> IsSpace(s[i])
    ensures e > 0 ==> !IsSpace(s[e - 1])
    decreases |s|
  {
    if s != [] && IsSpace(s[|s| - 1]) then TrailingStart(s[..|s| - 1]) else |s|
  }

  /** `strings.TrimSpace` on ASCII text: the text between the leading and
      the trailing white space, with no white space left at either end. */
  function TrimSpace(s: seq<byte>): (r: seq<byte>)
    ensures var lo := LeadingSpaces(s);
      && lo + |r| <= |s| && r == s[lo..lo + |r|]
      && (forall i :: 0 <= i < lo ==> IsSpace(s[i]))
      && (forall i :: lo + |r| <= i < |s| ==> IsSpace(s[i]))
    ensures r == [] || (!IsSpace(r[0]) && !IsSpace(r[|r| - 1]))
  {
    var lo := LeadingSpaces(s);
    if lo == |s| then [] else s[lo..TrailingStart(s)]
  }

  /** The text `Live` displays before fitting: spinner frame, a space, and
      the trimmed message. */
  function Message(frame: byte, text: seq<byte>): seq<byte>
  {
    [frame, Space] + TrimSpace(text)
  }

  // ---------------------------------------------------------------------
  // Fitting a line to the width

  /** How many message bytes survive shortening a message of `n` ASCII
      bytes to `width` runes: the first cut drops four bytes for the
      ellipsis, later cuts one byte each, until the line fits. */
  function Kept(n: nat, width: int): (k: nat)
    requires 1 <= width < n
    ensures k < n && k + 1 <= width
  {
    var first := if n >= 4 then n - 4 else 0;
    if first <= width - 1 then first else width - 1
  }

  /** The message after the shortening loop: unchanged when it fits,
      otherwise its first `Kept` bytes and an ellipsis. */
  function Shortened(msg: seq<byte>, width: int): seq<byte>
    requires width >= 1
  {
    if |msg| <= width then msg else msg[..Kept(|msg|, width)] + Ellipsis
  }

  /** The padding loop: spaces up to `width` runes. */
  function Pad(s: seq<byte>, width: int): seq<byte>
  {
    if RuneCount(s) < width then s + Spaces(width - RuneCount(s)) else s
  }

  /** The shortening loop exactly as written: each round replaces the last
      four bytes with an ellipsis, and a round on fewer than four bytes
      slices below zero, which panics (`None`). */
  function ShortenAsWritten(msg: seq<byte>, width: int): Option<seq<byte>>
    decreases |msg|
  {
    if RuneCount(msg) <= width then Some(msg)
    else if |msg| < 4 then None
    else ShortenAsWritten(msg[..|msg| - 4] + Ellipsis, width)
  }

  /** Both loops of `Live` as written. */
  function FitAsWritten(msg: seq<byte>, width: int): Option<seq<byte>>
  {
    match ShortenAsWritten(msg, width)
    case None => None
    case Some(s) => Some(Pad(s, width))
  }

  /** The shortening loop of `Live`, with the slice bound kept at zero or
      above: a message that fits is kept; one that does not keeps its first
      `Kept` bytes and gains an ellipsis, and then fits. */
  method Shorten(msg: seq<byte>, width: int) returns (line: seq<byte>)
    requires Ascii(msg) && width >= 1
    ensures RuneCount(line) <= width
    ensures |msg| <= width ==> line == msg
    ensures |msg| > width ==> line == msg[..Kept(|msg|, width)] + Ellipsis
  {
    AsciiRunes(msg);
    line := msg;
    ghost var cut := false;
    ghost var k: nat := |msg|;
    while RuneCount(line) > width
      invariant !cut ==> line == msg
      invariant cut ==> |msg| > width && k < |msg| && line == msg[..k] + Ellipsis && RuneCount(line) == k + 1
      invariant cut ==> k >= Kept(|msg|, width)
      invariant cut ==> k <= (if |msg| >= 4 then |msg| - 4 else 0)
      invariant cut ==> k == (if |msg| >= 4 then |msg| - 4 else 0) || k >= width - 1
      decreases RuneCount(line)
    {
      var bound := if |line| >= 4 then |line| - 4 else 0;
      if !cut {
        k := bound;
      } else {
        k := k - 1;
        assert line[..bound] == msg[..k];
      }
      line := line[..bound] + Ellipsis;
      cut := true;
      ShortenedRunes(msg, k);
    }
  }

  /** The padding loop of `Live`: spaces are appended until the line has
      `width` runes; nothing else changes. */
  method PadLine(s: seq<byte>, width: int) returns (line: seq<byte>)
    requires RuneCount(s) <= width
    ensures RuneCount(line) == width
    ensures line == s + Spaces(width - RuneCount(s))
  {
    line := s;
    var count := RuneCount(s);
    while count < width
      invariant count == RuneCount(line) <= width
      invariant line == s + Spaces(count - RuneCount(s))
      decreases width - count
    {
      RuneCountAppend(line, [Space]);
      line := line + [Space];
      count := count + 1;
    }
  }

  /** Both loops of `Live`, with the shortening fixed as in `Shorten`. The
      line always has exactly `width` runes; a message that fits is kept and
      padded with spaces; a message that does not fit keeps a prefix, gains
      an ellipsis, and is padded with spaces. */
  method Fit(msg: seq<byte>, width: int) returns (line: seq<byte>)
    requires Ascii(msg) && width >= 1
    ensures RuneCount(line) == width
    ensures |msg| <= width ==> line == msg + Spaces(width - |msg|)
    ensures |msg| > width ==>
      var k := Kept(|msg|, width);
      line == msg[..k] + Ellipsis + Spaces(width - k - 1)
    ensures line == Pad(Shortened(msg, width), width)
  {
    var short := Shorten(msg, width);
    AsciiRunes(msg);
    if |msg| > width {
      ShortenedRunes(msg, Kept(|msg|, width));
    }
    line := PadLine(short, width);
  }

  /** `Live` without the colour codes and the carriage return: the spinner
      frame, a space and the trimmed text, fitted to the console width. */
  method Live(frame: byte, text: seq<byte>, reported: Option<int>) returns (line: seq<byte>)
    requires frame < 0x80 && Ascii(text)
    ensures RuneCount(line) == ConsoleWidth(reported)
    ensures var msg, w := Message(frame, text), ConsoleWidth(reported);
      && (|msg| <= w ==> line == msg + Spaces(w - |msg|))
      && (|msg| > w ==> line == msg[..Kept(|msg|, w)] + Ellipsis + Spaces(w - Kept(|msg|, w) - 1))
  {
    var msg := Message(frame, text);
    MessageAscii(frame, text);
    line := Fit(msg, ConsoleWidth(reported));
  }

  /** The displayed message of an ASCII frame and text is ASCII. */
  lemma MessageAscii(frame: byte, text: seq<byte>)
    requires frame < 0x80 && Ascii(text)
    ensures Ascii(Message(frame, text))
  {
    var t := TrimSpace(text);
    var lo := LeadingSpaces(text);
    AsciiSlice(text, lo, lo + |t|);
    AsciiConcat([frame, Space], t);
  }

  lemma AsciiSlice(s: seq<byte>, lo: nat, hi: nat)
    requires Ascii(s) && lo <= hi <= |s|
    ensures Ascii(s[lo..hi])
  {
    forall i | 0 <= i < hi - lo ensures s[lo..hi][i] < 0x80 {
      assert s[lo..hi][i] == s[lo + i];
    }
  }

  lemma AsciiConcat(a: seq<byte>, b: seq<byte>)
    requires Ascii(a) && Ascii(b)
    ensures Ascii(a + b)
  {
    forall i | 0 <= i < |a + b| ensures (a + b)[i] < 0x80 {
      if i >= |a| {
        assert (a + b)[i] == b[i - |a|];
      }
    }
  }

  // ---------------------------------------------------------------------
  // Lemmas about fitting

  lemma {:induction false} RuneCountAppend(a: seq<byte>, b: seq<byte>)
    ensures RuneCount(a + b) == RuneCount(a) + RuneCount(b)
    decreases |a|
  {
    if a == [] {
      assert a + b == b;
    } else {
      assert (a + b)[1..] == a[1..] + b;
      RuneCountAppend(a[1..], b);
    }
  }

  lemma {:induction false} AsciiRunes(s: seq<byte>)
    requires Ascii(s)
    ensures RuneCount(s) == |s|
    decreases |s|
  {
    if s != [] {
      AsciiRunes(s[1..]);
    }
  }

  lemma ShortenedRunes(msg: seq<byte>, k: nat)
    requires Ascii(msg) && k <= |msg|
    ensures RuneCount(msg[..k] + Ellipsis) == k + 1
  {
    RuneCountAppend(msg[..k], Ellipsis);
    AsciiRunes(msg[..k]);
    assert Ellipsis[1..][1..] == [0xA6];
    assert RuneCount(Ellipsis) == 1;
  }

  /** On consoles at least three columns wide the loops as written never
      panic and give exactly the line `Fit` builds. */
  lemma {:induction false} FitAsWrittenAgrees(msg: seq<byte>, width: int)
    requires Ascii(msg) && width >= 3
    ensures FitAsWritten(msg, width) == Some(Pad(Shortened(msg, width), width))
  {
    AsciiRunes(msg);
    if |msg| > width {
      var k := |msg| - 4;
      ShortenedRunes(msg, k);
      ShortenTail(msg, k, width);
    }
  }

  /** From `msg[..k] + …`, the loop as written ends at `msg[..Kept] + …`. */
  lemma {:induction false} ShortenTail(msg: seq<byte>, k: nat, width: int)
    requires Ascii(msg) && width >= 3 && |msg| > width
    requires Kept(|msg|, width) <= k <= |msg| - 4
    requires k == |msg| - 4 || k >= width - 1
    ensures ShortenAsWritten(msg[..k] + Ellipsis, width) == Some(Shortened(msg, width))
    decreases k
  {
    var line := msg[..k] + Ellipsis;
    ShortenedRunes(msg, k);
    if k + 1 > width {
      assert line[..|line| - 4] == msg[..k - 1];
      ShortenTail(msg, k - 1, width);
    }
  }

  /** The loop as written panics on a one-column console: `Live` with an
      empty text shows two runes, more than fit, and the first cut slices
      `msg[0:-2]`. */
  lemma FitAsWrittenPanics()
    ensures FitAsWritten(Message('|' as int, []), 1) == None
  {
    var msg := Message('|' as int, []);
    assert TrimSpace([]) == [];
    assert msg == [124, 32];
    assert msg[1..] == [32];
    assert RuneCount([32]) == 1;
  }

  // ---------------------------------------------------------------------
  // The directory walk

  /** An abstract directory tree: a file, or a directory whose listing can
      be read or not. */
  datatype Node = File(name: string) | Dir(name: string, listing: Listing)
  datatype Listing = Unreadable | Entries(nodes: seq<Node>)

  /** The printed tree: directories become branches, files leaves. */
  datatype Item = Leaf(name: string) | Branch(name: string, items: seq<Item>)

  /** `shouldIgnore`: the name occurs in the ignore list. */
  function ShouldIgnore(name: string, ignore: seq<string>): (r: bool)
    ensures r <==> name in ignore
  {
    if ignore == [] then false
    else if name == ignore[0] then true
    else ShouldIgnore(name, ignore[1..])
  }

  /** No name, at any depth, is in the ignore list. */
  ghost predicate Avoids(items: seq<Item>, ignore: seq<string>) {
    forall i :: 0 <= i < |items| ==>
      items[i].name !in ignore && (items[i].Branch? ==> Avoids(items[i].items, ignore))
  }

  /** Some directory the walk enters cannot be listed. */
  ghost predicate Blocked(nodes: seq<Node>, ignore: seq<string>)
    decreases nodes
  {
    if nodes == [] then false
    else
      var n := nodes[0];
      ((n.name !in ignore && n.Dir? &&
        match n.listing
        case Unreadable => true
        case Entries(cs) => Blocked(cs, ignore))
       || Blocked(nodes[1..], ignore))
  }

  /** `walk` over the entries of one directory: ignored entries are
      skipped with their whole subtree, directories are walked into, and
      the first unreadable directory makes the whole walk fail. */
  function Walk(nodes: seq<Node>, ignore: seq<string>): (r: Option<seq<Item>>)
    ensures r.None? <==> Blocked(nodes, ignore)
    ensures r.Some? ==> Avoids(r.value, ignore)
    decreases nodes
  {
    if nodes == [] then Some([])
    else
      var n := nodes[0];
      if ShouldIgnore(n.name, ignore) then Walk(nodes[1..], ignore)
      else
        var head: Option<Item> :=
          match n
          case File(name) => Some(Leaf(name))
          case Dir(name, Unreadable) => None
          case Dir(name, Entries(cs)) =>
            (match Walk(cs, ignore)
             case None => None
             case Some(sub) => Some(Branch(name, sub)));
        match head
        case None => None
        case Some(item) =>
          match Walk(nodes[1..], ignore)
          case None => None
          case Some(rest) => Some([item] + rest)
  }

  /** `Tree`: the walk of the root directory, which must itself be readable. */
  function Tree(root: Listing, ignore: seq<string>): (r: Option<seq<Item>>)
    ensures r.Some? ==> root.Entries? && Avoids(r.value, ignore)
    ensures r.None? <==> root.Unreadable? || (root.Entries? && Blocked(root.nodes, ignore))
  {
    match root
    case Unreadable => None
    case Entries(nodes) => Walk(nodes, ignore)
  }

  /** The directory tree a printed tree shows. */
  function Unwalk(items: seq<Item>): seq<Node>
    decreases items
  {
    if items == [] then []
    else
      var head := match items[0]
        case Leaf(l) => File(l)
        case Branch(l, sub) => Dir(l, Entries(Unwalk(sub)));
      [head] + Unwalk(items[1..])
  }

  /** The tree with every ignored entry and its subtree removed. */
  function Prune(nodes: seq<Node>, ignore: seq<string>): seq<Node>
    decreases nodes
  {
    if nodes == [] then []
    else
      var n := nodes[0];
      if n.name in ignore then Prune(nodes[1..], ignore)
      else
        var head := match n
          case File(_) => n
          case Dir(name, Unreadable) => n
          case Dir(name, Entries(cs)) => Dir(name, Entries(Prune(cs, ignore)));
        [head] + Prune(nodes[1..], ignore)
  }

  /** With nothing ignored, a walk of readable directories loses nothing:
      the printed tree shows exactly the directory tree. */
  lemma {:induction false} WalkMirrors(nodes: seq<Node>)
    requires !Blocked(nodes, [])
    ensures Walk(nodes, []).Some? && Unwalk(Walk(nodes, []).value) == nodes
    decreases nodes
  {
    if nodes != [] {
      var n := nodes[0];
      match n {
        case File(_) =>
        case Dir(_, Unreadable) =>
        case Dir(_, Entries(cs)) => WalkMirrors(cs);
      }
      WalkMirrors(nodes[1..]);
    }
  }

  /** Walking with an ignore list is walking the pruned tree with none. */
  lemma {:induction false} WalkPrunes(nodes: seq<Node>, ignore: seq<string>)
    ensures Walk(nodes, ignore) == Walk(Prune(nodes, ignore), [])
    decreases nodes
  {
    if nodes != [] {
      var n := nodes[0];
      var p := Prune(nodes, ignore);
      if n.name in ignore {
        WalkPrunes(nodes[1..], ignore);
      } else {
        assert p[1..] == Prune(nodes[1..], ignore);
        WalkPrunes(nodes[1..], ignore);
        match n {
          case File(_) =>
          case Dir(_, Unreadable) =>
          case Dir(_, Entries(cs)) => WalkPrunes(cs, ignore);
        }
      }
    }
  }
}
